=== FILE: README.md ===
# Commissioning checklists: a Dafny model of the checklist core

This project models the logic at the core of a commissioning-checklist web
application. Administrators write templates: categories of tasks, each task a
checkbox, text, number or file answer that may be required. From a template
they create a checklist for one machine and one customer. The customer answers
the checklist through a public link. The model covers the following:

- **Types**: the record shapes of templates, categories, tasks and checklists,
  and the task-type and status vocabularies.
- **ProgressEngine**: the progress calculation. It counts the required tasks
  and the required tasks that are answered, then rounds the percentage.
- **TemplateDraft**: the template editor's draft operations (add, remove and
  update for categories and tasks) and the submit step, which validates the
  draft and normalises it into a template.
- **Records**: the rows the data layer inserts for a new template (with its
  defaults) and for a new checklist (`sent`, with a fresh public token).
- **ChecklistForm**: the new-checklist form, that is, its required-field
  check, the template lookup and the payload with its `N/A` defaults.
- **ChecklistTable**: the admin table's search and status filter.
- **DashboardStats**: the four counters on the admin dashboard.
- **TemplateList**: the total and required task counts on each template card.
- **AdminHeader**: which navigation link is highlighted for a path.
- **Text** and **Seqs**: the JavaScript string and array built-ins these use.
  Text covers `trim`, `toLowerCase`, `includes`, `startsWith`, `parseInt` and
  truthiness. Seqs covers `filter` and `map`.

Task answers are a map from task id to a `Value`: a boolean, a string, a
number or `null`. A missing key is `undefined`. The public token, the
generated ids are parameters, because they come from randomness. The
conversion of the due-date field to an ISO timestamp is a parameter too,
because date parsing is not modelled.

## Model

| member | source | states |
|---|---|---|
| Types.ParseTaskType | lib/types.ts:1 | parsing accepts exactly the four task-type names and inverts `TaskTypeName` |
| Types.ParseStatus | lib/types.ts:3 | parsing accepts exactly the five status names (`in_progress` with an underscore) and inverts `StatusName` |
| ProgressEngine.CalculateProgress | lib/db.ts:230-254 | completed never exceeds total; the percentage lies in 0..100; no required task gives 0 percent; a checklist without answers has nothing completed |
| ProgressEngine.CalculateProgressLoop | lib/db.ts:230-254 | the nested loop over categories and tasks computes the same progress as the recursive definition |
| ProgressEngine.RoundPercent | lib/db.ts:252 | 0 when total is 0; otherwise the nearest integer to 100·completed/total, halves rounded up; never above 100 when completed ≤ total; 100 when all are done; 0 when none is |
| ProgressEngine.RoundPercentBounds | lib/db.ts:252 | the round-half-up quotient lies within half a step of 100·c/t and meets the 0 and 100 end points |
| ProgressEngine.AllTasksSnoc | lib/db.ts:235-236 | visiting one more category appends its tasks to those already visited |
| ProgressEngine.CountsAppend | lib/db.ts:237-245 | both counts are additive over concatenated task lists |
| ProgressEngine.CountsSnoc | lib/db.ts:237-245 | one more task adds one to the total exactly when it is required, and one to completed exactly when it is required and answered |
| ProgressEngine.DoneAtMostRequired | lib/db.ts:237-245 | only required tasks can be completed, so completed ≤ total |
| ProgressEngine.NothingDoneWithoutAnswers | lib/db.ts:233 | with no answers (an empty `task_states`) nothing is completed |
| ProgressEngine.NonRequiredIgnored | lib/db.ts:237 | inserting an optional task anywhere in the list changes neither count, whatever its answer |
| ProgressEngine.DoneReadsOnlyRequiredAnswers | lib/db.ts:237-244 | two answer maps that agree on every required task's answer give the same completed count |
| ProgressEngine.AllDoneIff | lib/db.ts:237-245 | completed equals total if and only if every required task is answered |
| ProgressEngine.FullCompletionIsHundred | lib/db.ts:249-253 | when all of at least one required task are answered, completed equals total and the percentage is 100 |
| ProgressEngine.CheckboxScenario | lib/db.ts:240-241 | a required checkbox counts only with the boolean `true` (not the string `"true"`), and an optional note is ignored |
| ProgressEngine.NumberScenario | lib/db.ts:242-243 | a non-checkbox task counts for `0` and even `false`, but not for `null`, `""` or a missing answer |
| ProgressEngine.RoundingReachesHundredEarly | lib/db.ts:252 | 199 of 200 required tasks already show 100 percent |
| ProgressEngine.IsAnswered | lib/db.ts:240-244 | a checkbox is completed by the boolean `true` and by nothing else, the string `"true"` and the number 1 included; a missing, `null` or empty answer completes no task; a task of any other type is completed by any boolean, any number (`false` and `0` included) and any non-empty string |
| Records.TemplateRow | lib/db.ts:44-49 | name and categories are stored unchanged; an absent or empty description becomes null; estimated days of 0, NaN or absent become 14 and any other number is kept |
| Records.ChecklistRow | lib/db.ts:153-165 | a new checklist is `sent` and carries the given token; an absent or empty phone becomes null; every other field is copied from the input |
| Records.NewChecklistHasNoProgress | lib/db.ts:153-165 | a newly inserted checklist shows 0 of its template's required tasks, at 0 percent |
| TemplateDraft.AddCategory | app/admin/templates/new/page.tsx:51-60 | appends one unnamed, empty category with the given id and keeps the others |
| TemplateDraft.RemoveCategory | app/admin/templates/new/page.tsx:62-64 | the result is an ordered subsequence; every category with another id keeps all its occurrences, and none with that id remains |
| TemplateDraft.UpdateCategory | app/admin/templates/new/page.tsx:66-68 | renames exactly the categories with that id; ids, tasks and length are unchanged |
| TemplateDraft.AddTask | app/admin/templates/new/page.tsx:70-90 | appends a new required, untitled checkbox task to the matching category and changes nothing else |
| TemplateDraft.RemoveTask | app/admin/templates/new/page.tsx:92-96 | only the matching category changes; its tasks stay in order, every task with another id keeps all its occurrences, and none with that id remains |
| TemplateDraft.ApplyPatch | app/admin/templates/new/page.tsx:104 | each field the patch sets is overwritten; every other field and the id are kept |
| TemplateDraft.UpdateTask | app/admin/templates/new/page.tsx:98-109 | patches the matching task of the matching category; every other task and category is unchanged |
| TemplateDraft.RemoveUndoesAddCategory | app/admin/templates/new/page.tsx:51-64 | removing a freshly added category with a new id restores the draft |
| TemplateDraft.RemoveUndoesAddTask | app/admin/templates/new/page.tsx:70-96 | removing a freshly added task with a new id restores the draft |
| TemplateDraft.RenameBackRestores | app/admin/templates/new/page.tsx:66-68 | when category ids are distinct, renaming a category and then renaming it back restores the draft |
| TemplateDraft.UpdateTaskIdempotent | app/admin/templates/new/page.tsx:98-109 | applying the same patch twice equals applying it once |
| TemplateDraft.AddCategoryKeepsIdsUnique | app/admin/templates/new/page.tsx:51-60 | with a fresh id, adding a category keeps all category and task ids distinct |
| TemplateDraft.RemoveCategoryKeepsIdsUnique | app/admin/templates/new/page.tsx:62-64 | removing a category keeps ids distinct |
| TemplateDraft.UpdateCategoryKeepsIdsUnique | app/admin/templates/new/page.tsx:66-68 | renaming keeps ids distinct |
| TemplateDraft.AddTaskKeepsIdsUnique | app/admin/templates/new/page.tsx:70-90 | with a fresh id, adding a task keeps ids distinct |
| TemplateDraft.RemoveTaskKeepsIdsUnique | app/admin/templates/new/page.tsx:92-96 | removing a task keeps ids distinct |
| TemplateDraft.UpdateTaskKeepsIdsUnique | app/admin/templates/new/page.tsx:98-109 | a patch does not touch ids, so they stay distinct |
| TemplateDraft.ToTask | app/admin/templates/new/page.tsx:133-139 | the stored task keeps id, title, type and required; an empty description becomes undefined and any other description is kept |
| TemplateDraft.ToCategory | app/admin/templates/new/page.tsx:128-130 | a normalised category keeps the draft category's id and its name as typed |
| TemplateDraft.ToCategoryTasks | app/admin/templates/new/page.tsx:128-140 | a normalised category holds only conversions of titled draft tasks, holds every titled task, keeps the draft order of ids, and is non-empty when a task is titled; it has exactly as many tasks as the draft has titled tasks and is a subsequence of the converted draft tasks, so repeated titled tasks are all kept |
| TemplateDraft.NormalizedTasks | app/admin/templates/new/page.tsx:131-139 | every stored task has a non-blank title, and every titled draft task is stored |
| TemplateDraft.NormalizeDraft | app/admin/templates/new/page.tsx:119-140 | the result is empty iff no category is valid; it keeps the valid categories in order, each with a non-blank name and at least one task; it has exactly as many entries as the draft has valid categories and is a subsequence of the converted draft, so repeats are all kept |
| TemplateDraft.NormalizeKeepsEveryValid | app/admin/templates/new/page.tsx:119-140 | a draft whose categories are all valid is sent whole: every category converted, in order, repeats included |
| TemplateDraft.ToCategoryKeepsEveryTitled | app/admin/templates/new/page.tsx:128-140 | a category whose tasks all have titles keeps every task converted, in order, repeats included |
| TemplateDraft.NormalizedSubmittable | app/admin/templates/new/page.tsx:119-140 | every normalised category has a non-blank name and a non-empty task list of titled tasks |
| TemplateDraft.NormalizedIdsInOrder | app/admin/templates/new/page.tsx:119-129 | the stored category ids are a subsequence of the draft's |
| TemplateDraft.NormalizedEmptyIff | app/admin/templates/new/page.tsx:119-124 | nothing remains exactly when no category has a name and a titled task |
| TemplateDraft.NormalizedKeepsValid | app/admin/templates/new/page.tsx:119 | every valid draft category appears, converted, in the result |
| TemplateDraft.NormalizedFromValid | app/admin/templates/new/page.tsx:119 | every stored category comes from a valid draft category |
| TemplateDraft.SubmitTemplate | app/admin/templates/new/page.tsx:111-147 | a blank name is rejected first; then a draft without a valid category is rejected; otherwise the payload has the name, the normalised categories, an undefined description for "" and the parsed estimated days (14 for an empty field) |
| TemplateDraft.EstimatedDaysField | app/admin/templates/new/page.tsx:145 | an empty field means 14; the decimal notation of `n` means `n`; a field of whitespace only gives NaN |
| TemplateDraft.SubmitSucceeds | app/admin/templates/new/page.tsx:114-124 | a non-blank name and at least one valid category always pass validation, whatever the description and day count hold |
| TemplateDraft.StoredEstimatedDays | app/admin/templates/new/page.tsx:145 | after the insert default, an empty field stores 14, a decimal `n` stores `n`, and "0" stores 14 |
| TemplateDraft.InitialDraftRejected | app/admin/templates/new/page.tsx:43-49 | the draft the editor opens with has distinct ids; submitting it unchanged is rejected for the name if it is blank, and otherwise for having no valid category |
| ChecklistForm.FindTemplate | app/admin/checklists/new/page.tsx:66 | finds nothing iff no template has that id, and otherwise the first one that does |
| ChecklistForm.FirstMatchShifts | app/admin/checklists/new/page.tsx:66 | a first match in the tail is the first match of the whole list when the head does not match |
| ChecklistForm.SubmitChecklist | app/admin/checklists/new/page.tsx:58-84 | an empty required field is rejected first, then an unknown template id; otherwise the payload is built with `N/A` for an empty machine type or serial number, no phone for "", the found template's categories and the converted due date |
| ChecklistForm.BlankProjectNameAccepted | app/admin/checklists/new/page.tsx:61 | a project name of one space passes the required-field check unchanged, because the check does not trim |
| ChecklistForm.SubmittedRowCopiesTemplate | app/admin/checklists/new/page.tsx:74-84 | the stored row is `sent`, names the template and copies the categories of a template with that id, and its progress starts at 0 of the template's required tasks |
| ChecklistTable.FilterChecklists | components/checklist-table.tsx:23-29 | the result is an ordered subsequence; each checklist appears as often as in the input when its project or customer name contains the search (case-insensitive) and its status matches the filter, and not at all otherwise |
| ChecklistTable.MatchesSearch | components/checklist-table.tsx:24-26 | the empty search matches every checklist; a search longer than both names matches none |
| ChecklistTable.SearchFoundInName | components/checklist-table.tsx:24-26 | a search in any letter case whose lowered form occurs anywhere in the lowered project or customer name, not only at its start, matches |
| ChecklistTable.MatchesSearchIffOccurs | components/checklist-table.tsx:24-26 | a checklist matches iff the lowered search occurs at some index of its lowered project name or of its lowered customer name |
| ChecklistTable.MatchesStatus | components/checklist-table.tsx:27 | `all` keeps every checklist; any other value keeps a checklist iff the value parses to the checklist's status |
| ChecklistTable.NoFilterShowsAll | components/checklist-table.tsx:20-29 | with the initial empty search and `all` filter, every checklist is shown in order |
| ChecklistTable.EmptySearchFiltersByStatusOnly | components/checklist-table.tsx:23-29 | with an empty search, a checklist is shown iff its status matches |
| ChecklistTable.AllFilterKeepsEveryStatus | components/checklist-table.tsx:27 | with the `all` filter, a checklist is shown iff it matches the search |
| ChecklistTable.FilterIsIdempotent | components/checklist-table.tsx:23-29 | filtering the shown list again changes nothing |
| DashboardStats.DashboardCounts | app/admin/page.tsx:25-29 | total is the number of checklists; each status counter is at most the total and the three together do not exceed it |
| DashboardStats.CountStatus | app/admin/page.tsx:27-29 | a status counter is at most the number of checklists, and is 0 exactly when no checklist has that status |
| DashboardStats.ThreeStatusesBounded | app/admin/page.tsx:27-29 | the three status counts are disjoint, so their sum is at most the number of checklists |
| DashboardStats.CountsReadStoredStatusOnly | app/admin/page.tsx:25-29 | two lists whose stored statuses agree position by position give the same counters |
| TemplateList.TotalTasks | app/admin/templates/page.tsx:65 | the total equals the number of tasks across all categories |
| TemplateList.RequiredTasks | app/admin/templates/page.tsx:66-69 | the required count equals the progress engine's required count and never exceeds the total |
| TemplateList.FilterCountsRequired | app/admin/templates/page.tsx:67 | filtering for required tasks and taking the length gives the required count |
| TemplateList.CardMatchesProgressTotal | app/admin/templates/page.tsx:66-69 | a checklist created from a template shows as its progress total the card's required count |
| TemplateList.EmptyTemplateCounts | app/admin/templates/page.tsx:65-69 | a template without categories shows 0 tasks and 0 required |
| AdminHeader.IsActive | components/admin-header.tsx:20-23 | a link is active on its own path and only on paths that start with it; the dashboard link is inactive on every longer path; any other link is active on every path that starts with its own |
| AdminHeader.ChecklistsHighlighted | components/admin-header.tsx:37 | the checklists link is highlighted iff the path is exactly `/admin` |
| AdminHeader.TemplatesSectionHighlighted | components/admin-header.tsx:20-23 | every path under `/admin/templates` highlights the templates link, and `/admin` does not |
| AdminHeader.TemplatesHighlighted | components/admin-header.tsx:49 | the templates link is never highlighted together with the checklists link, and only on paths strictly below `/admin` |
| Seqs.Filter | app/admin/templates/new/page.tsx:63 | the result is an ordered subsequence; every element in it satisfies the predicate; every satisfying element of the input is in it; nothing is dropped when all satisfy |
| Seqs.FilterMultiplicity | app/admin/templates/new/page.tsx:63 | each value occurs in the result exactly as often as in the input when it satisfies the predicate, and not at all otherwise |
| Seqs.SubsequenceSameLength | app/admin/templates/new/page.tsx:119 | a subsequence as long as the sequence it is taken from is that sequence, so a filter that keeps as many elements as there are drops none |
| Seqs.FilterIdempotent | components/checklist-table.tsx:23 | filtering twice with the same predicate equals filtering once |
| Seqs.DisjointFiltersBounded | app/admin/page.tsx:27-29 | two filters with predicates that never both hold select at most the whole list together |
| Text.Trim | app/admin/templates/new/page.tsx:114 | trimming gives "" exactly when every character is JavaScript whitespace |
| Text.TrimEmptyIffSpace | app/admin/templates/new/page.tsx:119 | a string is blank after `trim` iff it consists of whitespace only |
| Text.BlankIffTrimEmpty | app/admin/templates/new/page.tsx:114 | the blank test used for names and titles holds exactly when `trim` leaves nothing |
| Text.Contains | components/checklist-table.tsx:25-26 | a needle longer than the text never occurs in it; a prefix always does |
| Text.ContainsIffOccurs | components/checklist-table.tsx:25-26 | `includes` holds iff the needle equals the slice of the text of its length at some index |
| Text.ContainsInfix | components/checklist-table.tsx:25-26 | a needle placed anywhere inside a text, between any prefix and suffix, is found |
| Text.ToLower | components/checklist-table.tsx:25-26 | the length is kept; every ASCII capital and every Latin-1 capital U+00C0-U+00DE other than U+00D7 becomes the character 32 code points above it, its own small letter; every other character is kept; no capital remains |
| Text.ToLowerIdempotent | components/checklist-table.tsx:25-26 | lowering an already lowered string changes nothing |
| Text.ParseDecimal | app/admin/templates/new/page.tsx:145 | `parseInt` of a natural number's decimal form gives back that number |
| Text.ParseInt | app/admin/templates/new/page.tsx:145 | whitespace only gives NaN; text starting with a decimal digit (and not `0x`) gives a non-negative number; text starting with any other non-space character except a sign gives NaN |

## Left out

- Database access (fetching, updating and deleting templates and checklists): these are remote calls. The model covers the rows that creation inserts.
- `generateToken` and `generateId`: they use randomness, so the token and ids are parameters.
- `new Date(dueDate).toISOString()`: date parsing is not modelled, so the conversion is the `toIsoDate` parameter of `SubmitChecklist`. The field is a date input, so it holds `yyyy-MM-dd`, which JavaScript reads as UTC midnight. The parameter is total, so the `RangeError` that `toISOString` throws for an unparsable date is not modelled.
- The due-date suggestion from `estimated_days` (`addDays`, `format`): date arithmetic on the clock.
- Login, logout, the admin session and the `AdminUser` record: authentication is not part of this model.
- The public checklist page's lifecycle (first open, saving answers, `completed_at`, the overdue lock): app/c/[token]/public-checklist-view.tsx is not part of this model.
- Rendering, toasts, routing after submit, the status badge and the progress bar's styling: presentation only.
- Fields the database fills in (`id`, `created_at`, `updated_at`, the default `task_states`): a new checklist is taken with no answers or an empty answer map.
- ProgressEngine.RoundPercent: `Math.round` on the floating-point quotient is modelled as exact round-half-up. The two can differ only where the float product lands just below a half.
- Text.ToLower: only ASCII and the Latin-1 upper-case letters are lowered. Other scripts are left unchanged.
- Text.Contains: strings are sequences of code points, not UTF-16 code units. `includes` gives the same answer either way, but a length bound such as the one in `ChecklistTable.MatchesSearch` counts a character outside the Basic Multilingual Plane once, where JavaScript counts it twice.
- Text.ParseInt: numbers are unbounded integers. Beyond 2^53, JavaScript's float precision is not modelled, and neither are radix arguments.
- ProgressEngine.Answer: a task id equal to an inherited object property name (such as `constructor`) is treated as absent. In JavaScript that lookup would find a function.
- TemplateDraft.ApplyPatch: the patch cannot change a task's id. The editor never sends one.
- Number answers are integers. Fractional answers count exactly as whole ones do, since the engine only rules out null, undefined and "".
- ChecklistForm.SubmitChecklist: the model accepts and copies any non-empty customer email. The field is `type="email"` inside a form, so the browser blocks a malformed address such as `abc` before the submit handler runs, and it strips leading and trailing whitespace from the value. That validation is not modelled.
- TemplateDraft.SubmitTemplate: the model accepts more day-field text than the page lets through. The browser's constraint validation (`type="number"`, `min="1"`, the default step) blocks values below 1 and fractions before the submit handler runs, and that validation is not modelled. Records.TemplateRow keeps any non-zero number, as `createTemplate` does.

=== FILE: admin_header.dfy ===
/** Which navigation link of the admin header is highlighted for the
    current path. */
module AdminHeader {
  import opened Text

  const DashboardPath := "/admin"
  const TemplatesPath := "/admin/templates"

  /** The dashboard link is active only on its exact path; any other link is
      active on every path that starts with its own. Either way a link is
      active on its own path and only on paths that start with it. */
  function IsActive(pathname: string, path: string): (b: bool)
    ensures pathname == path ==> b
    ensures b ==> StartsWith(pathname, path)
    ensures path == DashboardPath && |pathname| > |DashboardPath| ==> !b
    ensures path != DashboardPath && StartsWith(pathname, path) ==> b
  {
    if path == DashboardPath then pathname == DashboardPath else StartsWith(pathname, path)
  }

  /** The "Checklisten" link: active, and not inside the templates section.
      It is highlighted on the dashboard and nowhere else. */
  function ChecklistsHighlighted(pathname: string): (b: bool)
    ensures b <==> pathname == DashboardPath
  {
    assert pathname == DashboardPath ==> |TemplatesPath| > |pathname|;
    IsActive(pathname, DashboardPath) && !IsActive(pathname, TemplatesPath)
  }

  /** The "Vorlagen" link. It is never highlighted together with the
      checklists link, and only strictly below `/admin`. */
  function TemplatesHighlighted(pathname: string): (b: bool)
    ensures b ==> !ChecklistsHighlighted(pathname)
    ensures b ==> StartsWith(pathname, DashboardPath) && pathname != DashboardPath
  {
    IsActive(pathname, TemplatesPath)
  }

  /** The templates link stays highlighted on every page below the templates
      section, and is not highlighted on the dashboard. */
  lemma TemplatesSectionHighlighted(rest: string)
    ensures TemplatesHighlighted(TemplatesPath + rest)
    ensures TemplatesHighlighted("/admin/templates/new")
    ensures !TemplatesHighlighted(DashboardPath)
  {
    assert TemplatesPath <= TemplatesPath + rest;
  }
}

=== FILE: checklist_form.dfy ===
/** The "new checklist" form: the required-field check, the template
    lookup and the argument it hands to `createChecklist`. */
module ChecklistForm {
  import opened Wrappers
  import opened Types
  import opened Records
  import opened ProgressEngine

  /** The form fields exactly as typed; every field starts out empty. */
  datatype Form = Form(
    templateId: string,
    projectName: string,
    machineType: string,
    serialNumber: string,
    customerName: string,
    customerEmail: string,
    customerPhone: string,
    dueDate: string)

  datatype FormError = MissingRequiredField | TemplateNotFound

  const NotAvailable := "N/A"

  /** Index `i` holds the first template whose id is `id`. */
  predicate IsFirstMatch(templates: seq<Template>, id: string, i: int) {
    && 0 <= i < |templates|
    && templates[i].id == id
    && forall j :: 0 <= j < i ==> templates[j].id != id
  }

  /** `templates.find(t => t.id === id)`: the first template with that id. */
  function FindTemplate(templates: seq<Template>, id: string): (r: Option<Template>)
    ensures r.None? <==> forall i :: 0 <= i < |templates| ==> templates[i].id != id
    ensures r.Some? ==> exists i :: IsFirstMatch(templates, id, i) && templates[i] == r.value
  {
    if |templates| == 0 then None
    else if templates[0].id == id then
      assert IsFirstMatch(templates, id, 0);
      Some(templates[0])
    else
      var r := FindTemplate(templates[1..], id);
      if r.Some? then
        FirstMatchShifts(templates, id, r.value);
        r
      else r
  }

  lemma FirstMatchShifts(templates: seq<Template>, id: string, t: Template)
    requires |templates| > 0 && templates[0].id != id
    requires exists i :: IsFirstMatch(templates[1..], id, i) && templates[1..][i] == t
    ensures exists i :: IsFirstMatch(templates, id, i) && templates[i] == t
  {
    var i :| IsFirstMatch(templates[1..], id, i) && templates[1..][i] == t;
    assert forall j :: 1 <= j < i + 1 ==> templates[j] == templates[1..][j - 1];
    assert IsFirstMatch(templates, id, i + 1);
  }

  /** The required-field check: only the empty string fails it; a value
      made of spaces passes. */
  predicate IsMissingRequired(f: Form) {
    || f.templateId == ""
    || f.projectName == ""
    || f.customerName == ""
    || f.customerEmail == ""
    || f.dueDate == ""
  }

  /** The submit handler. `toIsoDate` stands for `new Date(d).toISOString()`,
      which the model does not compute. On success the argument names the
      selected template, copies that template's categories, and fills empty
      optional fields with their defaults. */
  function SubmitChecklist(templates: seq<Template>, f: Form, toIsoDate: string -> string)
    : (r: Result<ChecklistInput, FormError>)
    ensures r == Failure(MissingRequiredField) <==> IsMissingRequired(f)
    ensures r == Failure(TemplateNotFound) <==>
      !IsMissingRequired(f) && forall i :: 0 <= i < |templates| ==> templates[i].id != f.templateId
    ensures r.Success? ==>
      && FindTemplate(templates, f.templateId).Some?
      && r.value.templateId == f.templateId
      && r.value.categories == FindTemplate(templates, f.templateId).value.categories
    ensures r.Success? ==>
      && r.value.projectName == f.projectName
      && r.value.customerName == f.customerName
      && r.value.customerEmail == f.customerEmail
      && r.value.dueDate == toIsoDate(f.dueDate)
    ensures r.Success? ==>
      && r.value.machineType == (if f.machineType == "" then NotAvailable else f.machineType)
      && r.value.serialNumber == (if f.serialNumber == "" then NotAvailable else f.serialNumber)
      && (r.value.customerPhone.None? <==> f.customerPhone == "")
      && (r.value.customerPhone.Some? ==> r.value.customerPhone.value == f.customerPhone)
  {
    if IsMissingRequired(f) then Failure(MissingRequiredField)
    else
      match FindTemplate(templates, f.templateId)
      case None => Failure(TemplateNotFound)
      case Some(template) =>
        Success(ChecklistInput(
          f.templateId,
          f.projectName,
          if f.machineType == "" then NotAvailable else f.machineType,
          if f.serialNumber == "" then NotAvailable else f.serialNumber,
          f.customerName,
          f.customerEmail,
          if f.customerPhone == "" then None else Some(f.customerPhone),
          toIsoDate(f.dueDate),
          template.categories))
  }

  /** A project name of spaces only is accepted: the form does not trim. */
  lemma BlankProjectNameAccepted(templates: seq<Template>, f: Form, toIsoDate: string -> string)
    requires f.projectName == " "
    requires f.templateId != "" && f.customerName != "" && f.customerEmail != "" && f.dueDate != ""
    requires exists i :: 0 <= i < |templates| && templates[i].id == f.templateId
    ensures SubmitChecklist(templates, f, toIsoDate).Success?
    ensures SubmitChecklist(templates, f, toIsoDate).value.projectName == " "
  {
  }

  /** The row a successful submission inserts: status `sent`, a null phone
      when the field was empty, and the selected template's categories, so
      the new checklist's task ids are the template's and its progress
      starts at 0 of the template's required-task count. */
  lemma SubmittedRowCopiesTemplate(
    templates: seq<Template>, f: Form, toIsoDate: string -> string, token: string, c: Checklist)
    requires SubmitChecklist(templates, f, toIsoDate).Success?
    requires c.categories == ChecklistRow(SubmitChecklist(templates, f, toIsoDate).value, token).categories
    requires c.taskStates.None?
    ensures var row := ChecklistRow(SubmitChecklist(templates, f, toIsoDate).value, token);
      && row.status == Sent
      && row.templateId == f.templateId
      && (row.customerPhone.None? <==> f.customerPhone == "")
      && exists i :: 0 <= i < |templates| && templates[i].id == f.templateId
           && row.categories == templates[i].categories
           && CalculateProgress(c) == Progress(0, RequiredCount(AllTasks(templates[i].categories)), 0)
  {
    var input := SubmitChecklist(templates, f, toIsoDate).value;
    NewChecklistHasNoProgress(input, token, c);
  }
}

=== FILE: checklist_table.dfy ===
/** The dashboard table's search box and status filter. */
module ChecklistTable {
  import opened Wrappers
  import opened Types
  import opened Text
  import opened Seqs

  /** The status filter's value meaning "no status filter". */
  const AllStatuses := "all"

  /** The search matches the project or the customer name, ignoring case.
      The empty search matches every checklist; a search longer than both
      names matches none. */
  function MatchesSearch(c: Checklist, search: string): (b: bool)
    ensures search == "" ==> b
    ensures b ==> |search| <= |c.projectName| || |search| <= |c.customerName|
  {
    || Contains(ToLower(c.projectName), ToLower(search))
    || Contains(ToLower(c.customerName), ToLower(search))
  }

  /** A search typed in any letter case that occurs anywhere in the
      lowered project or customer name matches. */
  lemma SearchFoundInName(c: Checklist, search: string, a: string, z: string)
    requires || ToLower(c.projectName) == a + ToLower(search) + z
             || ToLower(c.customerName) == a + ToLower(search) + z
    ensures MatchesSearch(c, search)
  {
    ContainsInfix(a, ToLower(search), z);
  }

  /** The search matches exactly when the lowered search occurs at some
      index of the lowered project or customer name. */
  lemma MatchesSearchIffOccurs(c: Checklist, search: string)
    ensures MatchesSearch(c, search) <==>
      || (exists i :: OccursAt(ToLower(c.projectName), ToLower(search), i))
      || (exists i :: OccursAt(ToLower(c.customerName), ToLower(search), i))
  {
    ContainsIffOccurs(ToLower(c.projectName), ToLower(search));
    ContainsIffOccurs(ToLower(c.customerName), ToLower(search));
  }

  /** The status filter: `all` keeps every checklist; any other value keeps
      exactly the checklists whose status it names. */
  function MatchesStatus(c: Checklist, statusFilter: string): (b: bool)
    ensures statusFilter == AllStatuses ==> b
    ensures statusFilter != AllStatuses ==> (b <==> ParseStatus(statusFilter) == Some(c.status))
  {
    statusFilter == AllStatuses || StatusName(c.status) == statusFilter
  }

  function Shown(search: string, statusFilter: string): Checklist -> bool {
    (c: Checklist) => MatchesSearch(c, search) && MatchesStatus(c, statusFilter)
  }

  /** The rows the table shows, in the order it was given them. */
  function FilterChecklists(checklists: seq<Checklist>, search: string, statusFilter: string)
    : (r: seq<Checklist>)
    ensures IsSubsequence(r, checklists)
    ensures forall k :: 0 <= k < |r| ==> MatchesSearch(r[k], search) && MatchesStatus(r[k], statusFilter)
    ensures forall i :: 0 <= i < |checklists| ==>
      (MatchesSearch(checklists[i], search) && MatchesStatus(checklists[i], statusFilter) ==> checklists[i] in r)
    ensures statusFilter != AllStatuses ==> forall k :: 0 <= k < |r| ==> StatusName(r[k].status) == statusFilter
    ensures forall c :: (multiset(r)[c] ==
      if MatchesSearch(c, search) && MatchesStatus(c, statusFilter) then multiset(checklists)[c] else 0)
  {
    FilterMultiplicities(Shown(search, statusFilter), checklists);
    Filter(Shown(search, statusFilter), checklists)
  }

  /** With the empty search and the "all" filter the table shows everything. */
  lemma NoFilterShowsAll(checklists: seq<Checklist>)
    ensures FilterChecklists(checklists, "", AllStatuses) == checklists
  {
    forall i | 0 <= i < |checklists|
      ensures Shown("", AllStatuses)(checklists[i])
    {
    }
  }

  /** With the empty search a checklist is shown exactly when its status
      passes the filter. */
  lemma EmptySearchFiltersByStatusOnly(checklists: seq<Checklist>, statusFilter: string, c: Checklist)
    requires c in checklists
    ensures c in FilterChecklists(checklists, "", statusFilter) <==> MatchesStatus(c, statusFilter)
  {
  }

  /** With the "all" filter a checklist is shown exactly when it matches the
      search: no status excludes it. */
  lemma AllFilterKeepsEveryStatus(checklists: seq<Checklist>, search: string, c: Checklist)
    requires c in checklists
    ensures c in FilterChecklists(checklists, search, AllStatuses) <==> MatchesSearch(c, search)
  {
  }

  /** Filtering the shown rows again with the same search and filter shows
      the same rows. */
  lemma FilterIsIdempotent(checklists: seq<Checklist>, search: string, statusFilter: string)
    ensures FilterChecklists(FilterChecklists(checklists, search, statusFilter), search, statusFilter)
         == FilterChecklists(checklists, search, statusFilter)
  {
    FilterIdempotent(Shown(search, statusFilter), checklists);
  }
}

=== FILE: dashboard_stats.dfy ===
/** The four counters at the top of the administrator's dashboard. They read
    the stored status only; a checklist past its due date still counts under
    the status it was stored with. */
module DashboardStats {
  import opened Types
  import opened Seqs

  datatype Stats = Stats(total: nat, inProgress: nat, completed: nat, overdue: nat)

  function HasStatus(s: ChecklistStatus): Checklist -> bool {
    (c: Checklist) => c.status == s
  }

  /** How many checklists are stored with status `s`: none exactly when no
      checklist has it. */
  function CountStatus(checklists: seq<Checklist>, s: ChecklistStatus): (r: nat)
    ensures r <= |checklists|
    ensures r == 0 <==> forall i :: 0 <= i < |checklists| ==> checklists[i].status != s
  {
    |Filter(HasStatus(s), checklists)|
  }

  function DashboardCounts(checklists: seq<Checklist>): (r: Stats)
    ensures r.total == |checklists|
    ensures r.inProgress <= r.total && r.completed <= r.total && r.overdue <= r.total
    ensures r.inProgress + r.completed + r.overdue <= r.total
  {
    ThreeStatusesBounded(checklists);
    Stats(
      |checklists|,
      CountStatus(checklists, InProgress),
      CountStatus(checklists, Completed),
      CountStatus(checklists, Overdue))
  }

  /** Checklists in progress, completed and overdue are disjoint groups, so
      together they are no more than all checklists. */
  lemma {:induction false} ThreeStatusesBounded(checklists: seq<Checklist>)
    ensures CountStatus(checklists, InProgress) + CountStatus(checklists, Completed)
          + CountStatus(checklists, Overdue) <= |checklists|
    decreases |checklists|
  {
    if |checklists| > 0 {
      ThreeStatusesBounded(checklists[1..]);
    }
  }

  /** Only the stored statuses matter: lists with the same statuses in the
      same order give the same counts, whatever their due dates or answers. */
  lemma {:induction false} CountsReadStoredStatusOnly(a: seq<Checklist>, b: seq<Checklist>)
    requires |a| == |b|
    requires forall i :: 0 <= i < |a| ==> a[i].status == b[i].status
    ensures DashboardCounts(a) == DashboardCounts(b)
    decreases |a|
  {
    if |a| > 0 {
      CountsReadStoredStatusOnly(a[1..], b[1..]);
    }
  }
}

=== FILE: progress.dfy ===
/** The progress engine: how the answers stored for a checklist turn into
    the counts and percentage shown to the administrator and the customer.
    Only required tasks count; whether a task is done depends on its type. */
module ProgressEngine {
  import opened Wrappers
  import opened Types

  datatype Progress = Progress(completed: nat, total: nat, percentage: nat)

  /** Every task of `cats`, category by category, each in its own order. */
  function AllTasks(cats: seq<Category>): seq<Task> {
    if |cats| == 0 then [] else cats[0].tasks + AllTasks(cats[1..])
  }

  /** The answer stored under task id `id`; `None` is JavaScript's `undefined`. */
  function Answer(states: TaskStates, id: string): Option<Value> {
    if id in states then Some(states[id]) else None
  }

  /** The answers the engine reads: an absent map is read as an empty one. */
  function StatesOf(c: Checklist): TaskStates {
    c.taskStates.GetOr(map[])
  }

  /** The per-type completion test: a checkbox needs exactly the boolean
      `true`; any other type needs a value that is neither missing, `null`
      nor the empty string. So the boolean `true` completes a task of any
      type, a missing, `null` or empty answer completes none, and a
      non-checkbox task is completed by any boolean or number, `false` and
      `0` included. */
  function IsAnswered(t: Task, v: Option<Value>): (b: bool)
    ensures v == Some(VBool(true)) ==> b
    ensures b ==> v.Some? && v.value != VNull && v.value != VStr("")
    ensures t.kind != Checkbox && v.Some? && (v.value.VBool? || v.value.VNum?) ==> b
    ensures t.kind == Checkbox && v != Some(VBool(true)) ==> !b
    ensures t.kind != Checkbox && v.Some? && v.value.VStr? && v.value.s != "" ==> b
  {
    match t.kind
    case Checkbox => v == Some(VBool(true))
    case _ => v.Some? && v.value != VNull && v.value != VStr("")
  }

  /** A task adds to the completed count: it is required and answered. */
  predicate CountsAsDone(t: Task, states: TaskStates) {
    t.required && IsAnswered(t, Answer(states, t.id))
  }

  /** The number of required tasks in `ts`. */
  function RequiredCount(ts: seq<Task>): nat {
    if |ts| == 0 then 0 else (if ts[0].required then 1 else 0) + RequiredCount(ts[1..])
  }

  /** The number of required tasks in `ts` that `states` answers. */
  function DoneCount(ts: seq<Task>, states: TaskStates): nat {
    if |ts| == 0 then 0 else (if CountsAsDone(ts[0], states) then 1 else 0) + DoneCount(ts[1..], states)
  }

  /** `Math.round(c / t * 100)` on exact arithmetic, with 0 for `t == 0`: the
      integer nearest to `100 c / t`, halves rounded up. */
  function RoundPercent(c: nat, t: nat): (r: nat)
    ensures t == 0 ==> r == 0
    ensures t > 0 ==> t * (2 * r - 1) <= 200 * c < t * (2 * r + 1)
    ensures c <= t ==> r <= 100
    ensures c == t ==> r == 100 || t == 0
    ensures c == 0 ==> r == 0
  {
    if t == 0 then 0
    else
      var r := (200 * c + t) / (2 * t);
      RoundPercentBounds(c, t, r);
      r
  }

  lemma RoundPercentBounds(c: nat, t: nat, r: nat)
    requires t > 0 && r == (200 * c + t) / (2 * t)
    ensures t * (2 * r - 1) <= 200 * c < t * (2 * r + 1)
    ensures c <= t ==> r <= 100
    ensures c == t ==> r == 100
    ensures c == 0 ==> r == 0
  {
    var m := (200 * c + t) % (2 * t);
    assert 200 * c + t == 2 * t * r + m && 0 <= m < 2 * t;
    assert t * (2 * r - 1) == 2 * t * r - t;
    assert t * (2 * r + 1) == 2 * t * r + t;
    if c <= t {
      assert 2 * t * r < 2 * t * 101;
      MulCancel(2 * t, r, 101);
    }
    if c == t {
      assert 2 * t * 100 < 2 * t * (r + 1);
      MulCancel(2 * t, 100, r + 1);
    }
    if c == 0 {
      assert 2 * t * r < 2 * t * 1;
      MulCancel(2 * t, r, 1);
    }
  }

  lemma MulCancel(k: int, x: int, y: int)
    requires k > 0 && k * x < k * y
    ensures x < y
  {
  }

  /** The progress of checklist `c`: how many required tasks there are, how
      many of them are answered, and the rounded percentage. */
  function CalculateProgress(c: Checklist): (p: Progress)
    ensures p.completed <= p.total
    ensures p.percentage <= 100
    ensures p.total == 0 ==> p.percentage == 0
    ensures c.taskStates.None? ==> p.completed == 0
  {
    var ts := AllTasks(c.categories);
    var states := StatesOf(c);
    DoneAtMostRequired(ts, states);
    NothingDoneWithoutAnswers(ts);
    var done := DoneCount(ts, states);
    var total := RequiredCount(ts);
    Progress(done, total, RoundPercent(done, total))
  }

  /** The engine as the application runs it: one pass over the categories and,
      inside, over each category's tasks, counting as it goes. */
  method CalculateProgressLoop(c: Checklist) returns (p: Progress)
    ensures p == CalculateProgress(c)
  {
    var completed: nat := 0;
    var total: nat := 0;
    var taskStates := if c.taskStates.Some? then c.taskStates.value else map[];
    var i := 0;
    while i < |c.categories|
      invariant 0 <= i <= |c.categories|
      invariant total == RequiredCount(AllTasks(c.categories[..i]))
      invariant completed == DoneCount(AllTasks(c.categories[..i]), taskStates)
    {
      var tasks := c.categories[i].tasks;
      ghost var before := AllTasks(c.categories[..i]);
      var j := 0;
      assert before + tasks[..0] == before;
      while j < |tasks|
        invariant 0 <= j <= |tasks|
        invariant total == RequiredCount(before + tasks[..j])
        invariant completed == DoneCount(before + tasks[..j], taskStates)
      {
        var task := tasks[j];
        CountsSnoc(before + tasks[..j], task, taskStates);
        assert before + tasks[..j + 1] == before + tasks[..j] + [task];
        if task.required {
          total := total + 1;
          var value := Answer(taskStates, task.id);
          if task.kind == Checkbox {
            if value == Some(VBool(true)) {
              completed := completed + 1;
            }
          } else {
            if value != Some(VNull) && value != None && value != Some(VStr("")) {
              completed := completed + 1;
            }
          }
        }
        j := j + 1;
      }
      AllTasksSnoc(c.categories[..i + 1]);
      assert c.categories[..i + 1][..i] == c.categories[..i];
      assert tasks[..|tasks|] == tasks;
      i := i + 1;
    }
    assert c.categories[..|c.categories|] == c.categories;
    p := Progress(completed, total, if total > 0 then (200 * completed + total) / (2 * total) else 0);
  }

  lemma {:induction false} AllTasksSnoc(cats: seq<Category>)
    requires |cats| > 0
    ensures AllTasks(cats) == AllTasks(cats[..|cats| - 1]) + cats[|cats| - 1].tasks
    decreases |cats|
  {
    if |cats| > 1 {
      var init := cats[..|cats| - 1];
      assert cats[1..][..|cats[1..]| - 1] == init[1..];
      AllTasksSnoc(cats[1..]);
      assert init[0] == cats[0];
    }
  }

  /** Both counts distribute over concatenation of task lists. */
  lemma {:induction false} CountsAppend(a: seq<Task>, b: seq<Task>, states: TaskStates)
    ensures RequiredCount(a + b) == RequiredCount(a) + RequiredCount(b)
    ensures DoneCount(a + b, states) == DoneCount(a, states) + DoneCount(b, states)
    decreases |a|
  {
    if |a| == 0 {
      assert a + b == b;
    } else {
      assert (a + b)[1..] == a[1..] + b;
      CountsAppend(a[1..], b, states);
    }
  }

  lemma CountsSnoc(a: seq<Task>, t: Task, states: TaskStates)
    ensures RequiredCount(a + [t]) == RequiredCount(a) + (if t.required then 1 else 0)
    ensures DoneCount(a + [t], states) == DoneCount(a, states) + (if CountsAsDone(t, states) then 1 else 0)
  {
    CountsAppend(a, [t], states);
  }

  /** Completed never exceeds total: only required tasks can be done. */
  lemma {:induction false} DoneAtMostRequired(ts: seq<Task>, states: TaskStates)
    ensures DoneCount(ts, states) <= RequiredCount(ts)
    decreases |ts|
  {
    if |ts| > 0 {
      DoneAtMostRequired(ts[1..], states);
    }
  }

  /** With no stored answers nothing is done, whatever the task types. */
  lemma {:induction false} NothingDoneWithoutAnswers(ts: seq<Task>)
    ensures DoneCount(ts, map[]) == 0
    decreases |ts|
  {
    if |ts| > 0 {
      NothingDoneWithoutAnswers(ts[1..]);
    }
  }

  /** A task that is not required, wherever it sits and whatever its answer,
      changes neither count. */
  lemma NonRequiredIgnored(a: seq<Task>, t: Task, b: seq<Task>, states: TaskStates)
    requires !t.required
    ensures RequiredCount(a + [t] + b) == RequiredCount(a + b)
    ensures DoneCount(a + [t] + b, states) == DoneCount(a + b, states)
  {
    CountsAppend(a + [t], b, states);
    CountsAppend(a, [t], states);
    CountsAppend(a, b, states);
  }

  /** The completed count reads only the answers of required tasks: two answer
      maps that agree on those give the same count. */
  lemma {:induction false} DoneReadsOnlyRequiredAnswers(ts: seq<Task>, s1: TaskStates, s2: TaskStates)
    requires forall i :: 0 <= i < |ts| && ts[i].required ==> Answer(s1, ts[i].id) == Answer(s2, ts[i].id)
    ensures DoneCount(ts, s1) == DoneCount(ts, s2)
    decreases |ts|
  {
    if |ts| > 0 {
      assert forall i :: 1 <= i < |ts| ==> ts[1..][i - 1] == ts[i];
      DoneReadsOnlyRequiredAnswers(ts[1..], s1, s2);
    }
  }

  /** Every required task is answered exactly when the completed count
      reaches the required count. */
  lemma {:induction false} AllDoneIff(ts: seq<Task>, states: TaskStates)
    ensures DoneCount(ts, states) == RequiredCount(ts)
        <==> forall i :: 0 <= i < |ts| && ts[i].required ==> IsAnswered(ts[i], Answer(states, ts[i].id))
    decreases |ts|
  {
    if |ts| > 0 {
      AllDoneIff(ts[1..], states);
      DoneAtMostRequired(ts[1..], states);
      assert forall i :: 1 <= i < |ts| ==> ts[1..][i - 1] == ts[i];
      if !CountsAsDone(ts[0], states) && ts[0].required {
        assert !IsAnswered(ts[0], Answer(states, ts[0].id));
      }
    }
  }

  /** When every required task of a checklist is answered and there is at
      least one, progress shows 100 percent. */
  lemma FullCompletionIsHundred(c: Checklist)
    requires RequiredCount(AllTasks(c.categories)) > 0
    requires forall t :: t in AllTasks(c.categories) && t.required ==> IsAnswered(t, Answer(StatesOf(c), t.id))
    ensures CalculateProgress(c).completed == CalculateProgress(c).total
    ensures CalculateProgress(c).percentage == 100
  {
    var ts := AllTasks(c.categories);
    assert forall i :: 0 <= i < |ts| ==> ts[i] in ts;
    AllDoneIff(ts, StatesOf(c));
  }

  /** A category with a required checkbox and an optional text note: only
      the checkbox counts, and only the boolean `true` completes it. */
  lemma CheckboxScenario(c: Checklist)
    requires c.categories == [Category("el", "Electrical", [
      Task("wiring", "Check wiring", None, Checkbox, true),
      Task("notes", "Notes", None, Text, false)])]
    ensures c.taskStates.None? ==> CalculateProgress(c) == Progress(0, 1, 0)
    ensures c.taskStates == Some(map["wiring" := VBool(true)]) ==> CalculateProgress(c) == Progress(1, 1, 100)
    ensures c.taskStates == Some(map["wiring" := VStr("true")]) ==> CalculateProgress(c) == Progress(0, 1, 0)
    ensures c.taskStates == Some(map["notes" := VStr("ok")]) ==> CalculateProgress(c) == Progress(0, 1, 0)
  {
    var ts := AllTasks(c.categories);
    assert AllTasks(c.categories[1..]) == [];
    assert ts == c.categories[0].tasks;
    assert ts[1..][1..] == [];
    var states := StatesOf(c);
    assert RequiredCount(ts) == 1;
    assert !CountsAsDone(ts[1], states);
    assert DoneCount(ts[1..], states) == 0;
    assert DoneCount(ts, states) == if CountsAsDone(ts[0], states) then 1 else 0;
  }

  /** A required number task: 0 and even `false` complete it; `null`, the
      empty string and a missing answer do not. */
  lemma NumberScenario(c: Checklist)
    requires c.categories == [Category("m", "Measurements", [Task("rpm", "Speed", None, Number, true)])]
    ensures c.taskStates == Some(map["rpm" := VNum(0)]) ==> CalculateProgress(c) == Progress(1, 1, 100)
    ensures c.taskStates == Some(map["rpm" := VBool(false)]) ==> CalculateProgress(c) == Progress(1, 1, 100)
    ensures c.taskStates == Some(map["rpm" := VNull]) ==> CalculateProgress(c) == Progress(0, 1, 0)
    ensures c.taskStates == Some(map["rpm" := VStr("")]) ==> CalculateProgress(c) == Progress(0, 1, 0)
    ensures c.taskStates == Some(map[]) ==> CalculateProgress(c) == Progress(0, 1, 0)
  {
    var ts := AllTasks(c.categories);
    assert AllTasks(c.categories[1..]) == [];
    assert ts == c.categories[0].tasks;
    var states := StatesOf(c);
    assert RequiredCount(ts) == 1;
    assert DoneCount(ts, states) == if CountsAsDone(ts[0], states) then 1 else 0;
  }

  /** Rounding can show 100 percent before every required task is done:
      199 of 200 rounds up. */
  lemma RoundingReachesHundredEarly()
    ensures RoundPercent(199, 200) == 100
  {
  }
}

=== FILE: records.dfy ===
/** The rows `createTemplate` and `createChecklist` send to the data store.
    The insert itself, and the fields the store fills in (id, timestamps), are
    outside the model; what is modelled is how each field of the row is
    derived from the caller's argument. */
module Records {
  import opened Wrappers
  import opened Types
  import opened Text
  import opened ProgressEngine

  /** The argument of `createTemplate`; `estimatedDays` is absent or a number. */
  datatype TemplateInput = TemplateInput(
    name: string,
    description: Option<string>,
    estimatedDays: Option<JsNumber>,
    categories: seq<Category>)

  /** The row `createTemplate` inserts. */
  datatype TemplateInsert = TemplateInsert(
    name: string,
    description: Option<string>,
    estimatedDays: int,
    categories: seq<Category>)

  const DefaultEstimatedDays := 14

  /** `description || null` and `estimated_days || 14`: an empty description
      is stored as null, and a missing, zero or NaN day count as 14. */
  function TemplateRow(input: TemplateInput): (r: TemplateInsert)
    ensures r.name == input.name && r.categories == input.categories
    ensures r.description.None? <==> input.description.None? || input.description == Some("")
    ensures r.description.Some? ==> r.description == input.description
    ensures r.estimatedDays != 0
    ensures match input.estimatedDays
            case Some(Num(n)) => r.estimatedDays == (if n == 0 then DefaultEstimatedDays else n)
            case _ => r.estimatedDays == DefaultEstimatedDays
  {
    TemplateInsert(
      input.name,
      if input.description == Some("") then None else input.description,
      if input.estimatedDays.Some? && input.estimatedDays.value.IsTruthy() then input.estimatedDays.value.n
      else DefaultEstimatedDays,
      input.categories)
  }

  /** The argument of `createChecklist`. */
  datatype ChecklistInput = ChecklistInput(
    templateId: string,
    projectName: string,
    machineType: string,
    serialNumber: string,
    customerName: string,
    customerEmail: string,
    customerPhone: Option<string>,
    dueDate: string,
    categories: seq<Category>)

  /** The row `createChecklist` inserts. */
  datatype ChecklistInsert = ChecklistInsert(
    templateId: string,
    projectName: string,
    machineType: string,
    serialNumber: string,
    customerName: string,
    customerEmail: string,
    customerPhone: Option<string>,
    publicToken: string,
    status: ChecklistStatus,
    dueDate: string,
    categories: seq<Category>)

  /** A new checklist row: status `sent`, a fresh public token (generated
      outside the model and passed in), an empty phone stored as null, and the
      categories stored as given, so every task keeps its id. */
  function ChecklistRow(input: ChecklistInput, token: string): (r: ChecklistInsert)
    ensures r.status == Sent
    ensures r.publicToken == token
    ensures r.categories == input.categories
    ensures r.customerPhone.None? <==> input.customerPhone.None? || input.customerPhone == Some("")
    ensures r.customerPhone.Some? ==> r.customerPhone == input.customerPhone
    ensures r.templateId == input.templateId && r.projectName == input.projectName
    ensures r.machineType == input.machineType && r.serialNumber == input.serialNumber
    ensures r.customerName == input.customerName && r.customerEmail == input.customerEmail
    ensures r.dueDate == input.dueDate
  {
    ChecklistInsert(
      input.templateId,
      input.projectName,
      input.machineType,
      input.serialNumber,
      input.customerName,
      input.customerEmail,
      if input.customerPhone == Some("") then None else input.customerPhone,
      token,
      Sent,
      input.dueDate,
      input.categories)
  }

  /** A checklist read back from a freshly inserted row, before any answer is
      stored, shows no progress: nothing completed, 0 percent, and as many
      required tasks as the categories it was created with. */
  lemma NewChecklistHasNoProgress(input: ChecklistInput, token: string, c: Checklist)
    requires c.categories == ChecklistRow(input, token).categories
    requires c.taskStates.None? || c.taskStates == Some(map[])
    ensures CalculateProgress(c) == Progress(0, RequiredCount(AllTasks(input.categories)), 0)
  {
    NothingDoneWithoutAnswers(AllTasks(c.categories));
  }
}

=== FILE: seqs.dfy ===
/** Order-preserving selection on sequences: the model of JavaScript's
    `Array.prototype.filter`, which every list transform of the application
    is built on. */
module Seqs {

  /** `a` can be obtained from `b` by deleting elements, keeping order. */
  predicate IsSubsequence<T(==)>(a: seq<T>, b: seq<T>)
    decreases |b|
  {
    if |a| == 0 then true
    else if |b| == 0 then false
    else if a[0] == b[0] then IsSubsequence(a[1..], b[1..])
    else IsSubsequence(a, b[1..])
  }

  /** The elements of `s` that satisfy `p`, in their original order. */
  function Filter<T(==)>(p: T -> bool, s: seq<T>): (r: seq<T>)
    ensures |r| <= |s|
    ensures IsSubsequence(r, s)
    ensures forall i :: 0 <= i < |r| ==> r[i] in s && p(r[i])
    ensures forall i :: 0 <= i < |s| && p(s[i]) ==> s[i] in r
    ensures (forall i :: 0 <= i < |s| ==> p(s[i])) ==> r == s
  {
    if |s| == 0 then []
    else
      var rest := Filter(p, s[1..]);
      assert forall i :: 1 <= i < |s| ==> s[i] == s[1..][i - 1];
      if p(s[0]) then [s[0]] + rest else rest
  }

  /** `Filter` keeps every occurrence of a value that satisfies `p` and none
      of one that does not: each value occurs in the result exactly as often
      as in `s`, or not at all. */
  lemma {:induction false} FilterMultiplicity<T>(p: T -> bool, s: seq<T>, x: T)
    ensures multiset(Filter(p, s))[x] == if p(x) then multiset(s)[x] else 0
    decreases |s|
  {
    if |s| > 0 {
      FilterMultiplicity(p, s[1..], x);
      assert s == [s[0]] + s[1..];
      if p(s[0]) {
        assert Filter(p, s) == [s[0]] + Filter(p, s[1..]);
      }
    }
  }

  /** `FilterMultiplicity` for every value at once. */
  lemma FilterMultiplicities<T(!new)>(p: T -> bool, s: seq<T>)
    ensures forall x :: multiset(Filter(p, s))[x] == if p(x) then multiset(s)[x] else 0
  {
    forall x {
      FilterMultiplicity(p, s, x);
    }
  }

  /** Filtering twice with the same predicate changes nothing the second time. */
  lemma {:induction false} FilterIdempotent<T>(p: T -> bool, s: seq<T>)
    ensures Filter(p, Filter(p, s)) == Filter(p, s)
  {
    var r := Filter(p, s);
    assert forall i :: 0 <= i < |r| ==> r[i] in r;
  }

  /** Filtering distributes over concatenation. */
  lemma {:induction false} FilterAppend<T>(p: T -> bool, a: seq<T>, b: seq<T>)
    ensures Filter(p, a + b) == Filter(p, a) + Filter(p, b)
    decreases |a|
  {
    if |a| == 0 {
      assert a + b == b;
    } else {
      assert (a + b)[1..] == a[1..] + b;
      FilterAppend(p, a[1..], b);
    }
  }

  /** Filters by two predicates that no element satisfies together select at
      most as many elements as the sequence holds. */
  lemma {:induction false} DisjointFiltersBounded<T>(p: T -> bool, q: T -> bool, s: seq<T>)
    requires forall x :: !(p(x) && q(x))
    ensures |Filter(p, s)| + |Filter(q, s)| <= |s|
    decreases |s|
  {
    if |s| > 0 {
      DisjointFiltersBounded(p, q, s[1..]);
    }
  }

  /** `s.map(f)`. */
  function Map<A, B>(f: A -> B, s: seq<A>): (r: seq<B>)
    ensures |r| == |s|
    ensures forall i :: 0 <= i < |s| ==> r[i] == f(s[i])
  {
    seq(|s|, i requires 0 <= i < |s| => f(s[i]))
  }

  /** Skipping an element of the longer sequence keeps a subsequence one. */
  lemma {:induction false} SubsequenceOfTail<T>(a: seq<T>, b: seq<T>)
    requires |b| > 0 && IsSubsequence(a, b[1..])
    ensures IsSubsequence(a, b)
    decreases |b|, |a|
  {
    if |a| > 0 && a[0] == b[0] {
      SubsequenceDropHead(a, b[1..]);
    }
  }

  /** Dropping the first element of a subsequence keeps it a subsequence. */
  lemma {:induction false} SubsequenceDropHead<T>(a: seq<T>, b: seq<T>)
    requires |a| > 0 && IsSubsequence(a, b)
    ensures IsSubsequence(a[1..], b)
    decreases |b|, |a|
  {
    if a[0] == b[0] {
      SubsequenceOfTail(a[1..], b);
    } else {
      SubsequenceDropHead(a, b[1..]);
      SubsequenceOfTail(a[1..], b);
    }
  }

  /** A subsequence is never longer than the sequence it is taken from. */
  lemma {:induction false} SubsequenceNoLonger<T>(a: seq<T>, b: seq<T>)
    requires IsSubsequence(a, b)
    ensures |a| <= |b|
    decreases |b|
  {
    if |a| > 0 {
      if a[0] == b[0] {
        SubsequenceNoLonger(a[1..], b[1..]);
      } else {
        SubsequenceNoLonger(a, b[1..]);
      }
    }
  }

  /** A subsequence as long as the sequence it is taken from is that sequence:
      nothing was deleted. */
  lemma {:induction false} SubsequenceSameLength<T>(a: seq<T>, b: seq<T>)
    requires IsSubsequence(a, b) && |a| == |b|
    ensures a == b
    decreases |b|
  {
    if |a| > 0 {
      if a[0] == b[0] {
        SubsequenceSameLength(a[1..], b[1..]);
        assert a == [a[0]] + a[1..] && b == [b[0]] + b[1..];
      } else {
        SubsequenceNoLonger(a, b[1..]);
      }
    }
  }

  /** Mapping both sides keeps the subsequence relation. */
  lemma {:induction false} SubsequenceMap<A, B>(f: A -> B, a: seq<A>, b: seq<A>)
    requires IsSubsequence(a, b)
    ensures IsSubsequence(Map(f, a), Map(f, b))
    decreases |b|
  {
    if |a| > 0 {
      assert Map(f, b)[1..] == Map(f, b[1..]);
      if a[0] == b[0] {
        assert Map(f, a)[1..] == Map(f, a[1..]);
        SubsequenceMap(f, a[1..], b[1..]);
      } else {
        SubsequenceMap(f, a, b[1..]);
        SubsequenceOfTail(Map(f, a), Map(f, b));
      }
    }
  }

  /** No two elements of `s` share a key. */
  ghost predicate DistinctBy<T, K>(key: T -> K, s: seq<T>) {
    forall i, j :: 0 <= i < j < |s| ==> key(s[i]) != key(s[j])
  }

  /** Filtering keeps keys distinct. */
  lemma {:induction false} FilterDistinct<T, K>(p: T -> bool, key: T -> K, s: seq<T>)
    requires DistinctBy(key, s)
    ensures DistinctBy(key, Filter(p, s))
    decreases |s|
  {
    if |s| > 0 {
      assert DistinctBy(key, s[1..]) by {
        assert forall i :: 0 <= i < |s| - 1 ==> s[1..][i] == s[i + 1];
      }
      FilterDistinct(p, key, s[1..]);
      var rest := Filter(p, s[1..]);
      forall i | 0 <= i < |rest|
        ensures key(rest[i]) != key(s[0])
      {
        var j :| 0 <= j < |s[1..]| && s[1..][j] == rest[i];
        assert s[j + 1] == rest[i];
      }
    }
  }
}

=== FILE: template_draft.dfy ===
/** The "new template" editor: a draft tree of categories and tasks edited
    by pure, immutable operations, and the submit step that validates the
    draft and normalises it into the argument of `createTemplate`.
    Fresh ids come from a random generator outside the model and are passed
    in as parameters. */
module TemplateDraft {
  import opened Wrappers
  import opened Types
  import opened Text
  import opened Seqs
  import opened Records

  datatype DraftTask = DraftTask(id: string, title: string, description: string, kind: TaskType, required: bool)

  datatype DraftCategory = DraftCategory(id: string, name: string, tasks: seq<DraftTask>)

  /** The fields of a task the editor changes at once; a present field
      replaces the task's, an absent one leaves it. */
  datatype TaskPatch = TaskPatch(
    title: Option<string>,
    description: Option<string>,
    kind: Option<TaskType>,
    required: Option<bool>)

  function DraftCategoryId(c: DraftCategory): string { c.id }
  function DraftTaskId(t: DraftTask): string { t.id }
  function CategoryId(c: Category): string { c.id }
  function TaskId(t: Task): string { t.id }

  /** Category and task ids are unique: no two categories share an id, and no
      two tasks of one category do. */
  ghost predicate IdsUnique(cats: seq<DraftCategory>) {
    && DistinctBy(DraftCategoryId, cats)
    && forall i :: 0 <= i < |cats| ==> DistinctBy(DraftTaskId, cats[i].tasks)
  }

  /** The category a fresh `addCategory` appends. */
  function EmptyCategory(id: string): DraftCategory {
    DraftCategory(id, "", [])
  }

  /** The task a fresh `addTask` appends: untitled, a checkbox, required. */
  function NewTask(id: string): DraftTask {
    DraftTask(id, "", "", Checkbox, true)
  }

  /** The editor opens with one empty category. */
  function InitialDraft(freshId: string): (r: seq<DraftCategory>)
    ensures |r| == 1 && r[0].id == freshId && r[0].name == "" && r[0].tasks == []
  {
    [EmptyCategory(freshId)]
  }

  function AddCategory(cats: seq<DraftCategory>, freshId: string): (r: seq<DraftCategory>)
    ensures |r| == |cats| + 1
    ensures r[..|cats|] == cats
    ensures r[|cats|].id == freshId && r[|cats|].name == "" && r[|cats|].tasks == []
  {
    cats + [EmptyCategory(freshId)]
  }

  function CategoryNotId(id: string): DraftCategory -> bool {
    (c: DraftCategory) => c.id != id
  }

  function RemoveCategory(cats: seq<DraftCategory>, id: string): (r: seq<DraftCategory>)
    ensures IsSubsequence(r, cats)
    ensures forall k :: 0 <= k < |r| ==> r[k].id != id
    ensures forall i :: 0 <= i < |cats| && cats[i].id != id ==> cats[i] in r
    ensures forall c :: multiset(r)[c] == if c.id != id then multiset(cats)[c] else 0
  {
    FilterMultiplicities(CategoryNotId(id), cats);
    Filter(CategoryNotId(id), cats)
  }

  function Rename(id: string, name: string): DraftCategory -> DraftCategory {
    (c: DraftCategory) => if c.id == id then c.(name := name) else c
  }

  function UpdateCategory(cats: seq<DraftCategory>, id: string, name: string): (r: seq<DraftCategory>)
    ensures |r| == |cats|
    ensures forall i :: 0 <= i < |cats| ==> r[i].id == cats[i].id && r[i].tasks == cats[i].tasks
    ensures forall i :: 0 <= i < |cats| && cats[i].id != id ==> r[i] == cats[i]
    ensures forall i :: 0 <= i < |cats| && cats[i].id == id ==> r[i].name == name
  {
    Map(Rename(id, name), cats)
  }

  /** Applies `f` to the tasks of every category whose id is `id`. */
  function OnTasksOf(id: string, f: seq<DraftTask> -> seq<DraftTask>): DraftCategory -> DraftCategory {
    (c: DraftCategory) => if c.id == id then c.(tasks := f(c.tasks)) else c
  }

  function AppendTask(freshId: string): seq<DraftTask> -> seq<DraftTask> {
    (ts: seq<DraftTask>) => ts + [NewTask(freshId)]
  }

  function AddTask(cats: seq<DraftCategory>, categoryId: string, freshId: string): (r: seq<DraftCategory>)
    ensures |r| == |cats|
    ensures forall i :: 0 <= i < |cats| ==> r[i].id == cats[i].id && r[i].name == cats[i].name
    ensures forall i :: 0 <= i < |cats| && cats[i].id != categoryId ==> r[i] == cats[i]
    ensures forall i :: 0 <= i < |cats| && cats[i].id == categoryId ==>
      && |r[i].tasks| == |cats[i].tasks| + 1
      && r[i].tasks[..|cats[i].tasks|] == cats[i].tasks
      && r[i].tasks[|cats[i].tasks|] == NewTask(freshId)
  {
    Map(OnTasksOf(categoryId, AppendTask(freshId)), cats)
  }

  function TaskNotId(id: string): DraftTask -> bool {
    (t: DraftTask) => t.id != id
  }

  function DropTask(taskId: string): seq<DraftTask> -> seq<DraftTask> {
    (ts: seq<DraftTask>) => Filter(TaskNotId(taskId), ts)
  }

  function RemoveTask(cats: seq<DraftCategory>, categoryId: string, taskId: string): (r: seq<DraftCategory>)
    ensures |r| == |cats|
    ensures forall i :: 0 <= i < |cats| ==> r[i].id == cats[i].id && r[i].name == cats[i].name
    ensures forall i :: 0 <= i < |cats| && cats[i].id != categoryId ==> r[i] == cats[i]
    ensures forall i :: 0 <= i < |cats| && cats[i].id == categoryId ==>
      && IsSubsequence(r[i].tasks, cats[i].tasks)
      && (forall k :: 0 <= k < |r[i].tasks| ==> r[i].tasks[k].id != taskId)
      && (forall j :: 0 <= j < |cats[i].tasks| && cats[i].tasks[j].id != taskId ==> cats[i].tasks[j] in r[i].tasks)
      && (forall t :: multiset(r[i].tasks)[t] == if t.id != taskId then multiset(cats[i].tasks)[t] else 0)
  {
    DropTaskMultiplicities(cats, taskId);
    Map(OnTasksOf(categoryId, DropTask(taskId)), cats)
  }

  lemma DropTaskMultiplicities(cats: seq<DraftCategory>, taskId: string)
    ensures forall i :: 0 <= i < |cats| ==> forall t ::
      multiset(DropTask(taskId)(cats[i].tasks))[t] == if t.id != taskId then multiset(cats[i].tasks)[t] else 0
  {
    forall i | 0 <= i < |cats| {
      FilterMultiplicities(TaskNotId(taskId), cats[i].tasks);
    }
  }

  /** `{ ...t, ...updates }`: the id is never part of a patch. */
  function ApplyPatch(t: DraftTask, p: TaskPatch): (r: DraftTask)
    ensures r.id == t.id
    ensures r.title == p.title.GetOr(t.title) && r.description == p.description.GetOr(t.description)
    ensures r.kind == p.kind.GetOr(t.kind) && r.required == p.required.GetOr(t.required)
  {
    DraftTask(t.id, p.title.GetOr(t.title), p.description.GetOr(t.description),
              p.kind.GetOr(t.kind), p.required.GetOr(t.required))
  }

  function PatchIf(taskId: string, p: TaskPatch): DraftTask -> DraftTask {
    (t: DraftTask) => if t.id == taskId then ApplyPatch(t, p) else t
  }

  function PatchTasks(taskId: string, p: TaskPatch): seq<DraftTask> -> seq<DraftTask> {
    (ts: seq<DraftTask>) => Map(PatchIf(taskId, p), ts)
  }

  function UpdateTask(cats: seq<DraftCategory>, categoryId: string, taskId: string, p: TaskPatch): (r: seq<DraftCategory>)
    ensures |r| == |cats|
    ensures forall i :: 0 <= i < |cats| ==> r[i].id == cats[i].id && r[i].name == cats[i].name
    ensures forall i :: 0 <= i < |cats| && cats[i].id != categoryId ==> r[i] == cats[i]
    ensures forall i :: 0 <= i < |cats| && cats[i].id == categoryId ==>
      && |r[i].tasks| == |cats[i].tasks|
      && (forall j :: 0 <= j < |cats[i].tasks| && cats[i].tasks[j].id != taskId ==> r[i].tasks[j] == cats[i].tasks[j])
      && (forall j :: 0 <= j < |cats[i].tasks| && cats[i].tasks[j].id == taskId ==>
            r[i].tasks[j] == ApplyPatch(cats[i].tasks[j], p))
  {
    Map(OnTasksOf(categoryId, PatchTasks(taskId, p)), cats)
  }

  // Inverses and invariants of the editing operations

  /** Removing a freshly added category gives back the draft it was added to. */
  lemma RemoveUndoesAddCategory(cats: seq<DraftCategory>, freshId: string)
    requires forall i :: 0 <= i < |cats| ==> cats[i].id != freshId
    ensures RemoveCategory(AddCategory(cats, freshId), freshId) == cats
  {
    FilterAppend(CategoryNotId(freshId), cats, [EmptyCategory(freshId)]);
  }

  /** Removing a freshly added task gives back the draft it was added to. */
  lemma RemoveUndoesAddTask(cats: seq<DraftCategory>, categoryId: string, freshId: string)
    requires forall i, j :: 0 <= i < |cats| && cats[i].id == categoryId && 0 <= j < |cats[i].tasks| ==>
      cats[i].tasks[j].id != freshId
    ensures RemoveTask(AddTask(cats, categoryId, freshId), categoryId, freshId) == cats
  {
    var added := AddTask(cats, categoryId, freshId);
    var r := RemoveTask(added, categoryId, freshId);
    forall i | 0 <= i < |cats|
      ensures r[i] == cats[i]
    {
      if cats[i].id == categoryId {
        DropAppendedTask(cats[i].tasks, freshId);
        assert r[i] == OnTasksOf(categoryId, DropTask(freshId))(added[i]);
      }
    }
  }

  /** Dropping a task appended under an id no other task has gives back the
      tasks it was appended to. */
  lemma DropAppendedTask(ts: seq<DraftTask>, freshId: string)
    requires forall j :: 0 <= j < |ts| ==> ts[j].id != freshId
    ensures DropTask(freshId)(ts + [NewTask(freshId)]) == ts
  {
    FilterAppend(TaskNotId(freshId), ts, [NewTask(freshId)]);
    assert Filter(TaskNotId(freshId), [NewTask(freshId)]) == [];
  }

  /** Renaming a category back to its old name restores the draft. */
  lemma RenameBackRestores(cats: seq<DraftCategory>, k: nat, name: string)
    requires k < |cats| && IdsUnique(cats)
    ensures UpdateCategory(UpdateCategory(cats, cats[k].id, name), cats[k].id, cats[k].name) == cats
  {
    var r := UpdateCategory(UpdateCategory(cats, cats[k].id, name), cats[k].id, cats[k].name);
    forall i | 0 <= i < |cats|
      ensures r[i] == cats[i]
    {
      if i != k {
        assert DraftCategoryId(cats[i]) != DraftCategoryId(cats[k]) by {
          if i < k {} else {}
        }
      }
    }
  }

  /** Applying the same task update twice is the same as applying it once. */
  lemma UpdateTaskIdempotent(cats: seq<DraftCategory>, categoryId: string, taskId: string, p: TaskPatch)
    ensures UpdateTask(UpdateTask(cats, categoryId, taskId, p), categoryId, taskId, p)
         == UpdateTask(cats, categoryId, taskId, p)
  {
    var once := UpdateTask(cats, categoryId, taskId, p);
    var twice := UpdateTask(once, categoryId, taskId, p);
    forall i | 0 <= i < |cats|
      ensures twice[i] == once[i]
    {
      if cats[i].id == categoryId {
        assert twice[i].tasks == once[i].tasks;
      }
    }
  }

  /** Adding a category under a fresh id keeps ids unique. */
  lemma AddCategoryKeepsIdsUnique(cats: seq<DraftCategory>, freshId: string)
    requires IdsUnique(cats)
    requires forall i :: 0 <= i < |cats| ==> cats[i].id != freshId
    ensures IdsUnique(AddCategory(cats, freshId))
  {
  }

  lemma RemoveCategoryKeepsIdsUnique(cats: seq<DraftCategory>, id: string)
    requires IdsUnique(cats)
    ensures IdsUnique(RemoveCategory(cats, id))
  {
    FilterDistinct(CategoryNotId(id), DraftCategoryId, cats);
  }

  lemma UpdateCategoryKeepsIdsUnique(cats: seq<DraftCategory>, id: string, name: string)
    requires IdsUnique(cats)
    ensures IdsUnique(UpdateCategory(cats, id, name))
  {
    var r := UpdateCategory(cats, id, name);
    assert forall i :: 0 <= i < |cats| ==> DraftCategoryId(r[i]) == DraftCategoryId(cats[i]);
  }

  /** Adding a task under an id fresh in its category keeps ids unique. */
  lemma AddTaskKeepsIdsUnique(cats: seq<DraftCategory>, categoryId: string, freshId: string)
    requires IdsUnique(cats)
    requires forall i, j :: 0 <= i < |cats| && cats[i].id == categoryId && 0 <= j < |cats[i].tasks| ==>
      cats[i].tasks[j].id != freshId
    ensures IdsUnique(AddTask(cats, categoryId, freshId))
  {
    var r := AddTask(cats, categoryId, freshId);
    assert forall i :: 0 <= i < |cats| ==> DraftCategoryId(r[i]) == DraftCategoryId(cats[i]);
    forall i | 0 <= i < |cats|
      ensures DistinctBy(DraftTaskId, r[i].tasks)
    {
      if cats[i].id == categoryId {
        assert forall j :: 0 <= j < |cats[i].tasks| ==> r[i].tasks[j] == cats[i].tasks[j];
      }
    }
  }

  lemma RemoveTaskKeepsIdsUnique(cats: seq<DraftCategory>, categoryId: string, taskId: string)
    requires IdsUnique(cats)
    ensures IdsUnique(RemoveTask(cats, categoryId, taskId))
  {
    var r := RemoveTask(cats, categoryId, taskId);
    assert forall i :: 0 <= i < |cats| ==> DraftCategoryId(r[i]) == DraftCategoryId(cats[i]);
    forall i | 0 <= i < |cats|
      ensures DistinctBy(DraftTaskId, r[i].tasks)
    {
      if cats[i].id == categoryId {
        FilterDistinct(TaskNotId(taskId), DraftTaskId, cats[i].tasks);
      }
    }
  }

  lemma UpdateTaskKeepsIdsUnique(cats: seq<DraftCategory>, categoryId: string, taskId: string, p: TaskPatch)
    requires IdsUnique(cats)
    ensures IdsUnique(UpdateTask(cats, categoryId, taskId, p))
  {
    var r := UpdateTask(cats, categoryId, taskId, p);
    assert forall i :: 0 <= i < |cats| ==> DraftCategoryId(r[i]) == DraftCategoryId(cats[i]);
    forall i | 0 <= i < |cats|
      ensures DistinctBy(DraftTaskId, r[i].tasks)
    {
      assert forall j :: 0 <= j < |cats[i].tasks| ==> DraftTaskId(r[i].tasks[j]) == DraftTaskId(cats[i].tasks[j]);
    }
  }

  // Submitting the draft

  datatype DraftError = BlankName | NoValidCategory

  predicate HasTitledTask(c: DraftCategory) {
    exists j :: 0 <= j < |c.tasks| && !IsBlank(c.tasks[j].title)
  }

  /** A category survives submission: its name is not blank and at least one
      of its tasks has a title that is not blank. */
  predicate IsValidCategory(c: DraftCategory) {
    !IsBlank(c.name) && HasTitledTask(c)
  }

  predicate IsTitled(t: DraftTask) {
    !IsBlank(t.title)
  }

  /** A draft task as stored: an empty description is dropped. */
  function ToTask(t: DraftTask): (r: Task)
    ensures r.id == t.id && r.title == t.title && r.kind == t.kind && r.required == t.required
    ensures r.description.None? <==> t.description == ""
    ensures t.description != "" ==> r.description == Some(t.description)
  {
    Task(t.id, t.title, if t.description == "" then None else Some(t.description), t.kind, t.required)
  }

  /** A draft category as stored: the untitled tasks are dropped, the others
      keep their ids and their order; the name is kept as typed. */
  function ToCategory(c: DraftCategory): (r: Category)
    ensures r.id == c.id && r.name == c.name
  {
    Category(c.id, c.name, Map(ToTask, Filter(IsTitled, c.tasks)))
  }

  /** What normalising a category keeps of its tasks: only titled ones, all
      of them, with their ids in the draft's order. */
  lemma ToCategoryTasks(c: DraftCategory)
    ensures forall k :: 0 <= k < |ToCategory(c).tasks| ==> !IsBlank(ToCategory(c).tasks[k].title)
    ensures IsSubsequence(Map(TaskId, ToCategory(c).tasks), Map(DraftTaskId, c.tasks))
    ensures forall j :: 0 <= j < |c.tasks| && IsTitled(c.tasks[j]) ==> ToTask(c.tasks[j]) in ToCategory(c).tasks
    ensures HasTitledTask(c) ==> |ToCategory(c).tasks| > 0
    ensures forall k :: 0 <= k < |ToCategory(c).tasks| ==> ComesFromTitled(ToCategory(c).tasks[k], c)
    ensures |ToCategory(c).tasks| == |Filter(IsTitled, c.tasks)|
    ensures IsSubsequence(ToCategory(c).tasks, Map(ToTask, c.tasks))
  {
    var tasks := ToCategory(c).tasks;
    NormalizedTasks(c.tasks, Filter(IsTitled, c.tasks), tasks);
    SubsequenceMap(ToTask, Filter(IsTitled, c.tasks), c.tasks);
    forall k | 0 <= k < |tasks|
      ensures ComesFromTitled(tasks[k], c)
    {
      MappedComesFrom(IsTitled, ToTask, c.tasks, k);
    }
  }

  /** A category whose tasks all have titles keeps every one of them, in
      order, repeats included. */
  lemma ToCategoryKeepsEveryTitled(c: DraftCategory)
    requires forall j :: 0 <= j < |c.tasks| ==> IsTitled(c.tasks[j])
    ensures ToCategory(c).tasks == Map(ToTask, c.tasks)
  {
    ToCategoryTasks(c);
    SubsequenceSameLength(ToCategory(c).tasks, Map(ToTask, c.tasks));
  }

  /** `t` is the stored form of some titled task of the draft category `c`. */
  predicate ComesFromTitled(t: Task, c: DraftCategory) {
    exists j :: 0 <= j < |c.tasks| && IsTitled(c.tasks[j]) && t == ToTask(c.tasks[j])
  }

  lemma NormalizedTasks(ts: seq<DraftTask>, kept: seq<DraftTask>, tasks: seq<Task>)
    requires kept == Filter(IsTitled, ts) && tasks == Map(ToTask, kept)
    ensures forall k :: 0 <= k < |tasks| ==> !IsBlank(tasks[k].title)
    ensures IsSubsequence(Map(TaskId, tasks), Map(DraftTaskId, ts))
    ensures forall j :: 0 <= j < |ts| && IsTitled(ts[j]) ==> ToTask(ts[j]) in tasks
  {
    assert Map(TaskId, tasks) == Map(DraftTaskId, kept);
    SubsequenceMap(DraftTaskId, kept, ts);
    forall j | 0 <= j < |ts| && IsTitled(ts[j])
      ensures ToTask(ts[j]) in tasks
    {
      KeptIsMapped(IsTitled, ToTask, ts, j);
    }
  }

  /** The template tree `createTemplate` may receive: every category has a
      name that is not blank and at least one task, every task a title that
      is not blank. */
  predicate IsSubmittable(cats: seq<Category>) {
    forall k :: 0 <= k < |cats| ==>
      && !IsBlank(cats[k].name)
      && |cats[k].tasks| > 0
      && forall j :: 0 <= j < |cats[k].tasks| ==> !IsBlank(cats[k].tasks[j].title)
  }

  /** The value of the estimated-days field: 14 when it is empty, otherwise
      what `parseInt` reads from it, so the number typed in decimal, and NaN
      for text that does not start with a number. */
  function EstimatedDaysField(s: string): (r: JsNumber)
    ensures s == "" ==> r == Num(DefaultEstimatedDays)
    ensures forall n: nat :: s == Decimal(n) ==> r == Num(n)
    ensures s != "" && (forall i :: 0 <= i < |s| ==> IsJsSpace(s[i])) ==> r.NaN?
  {
    DecimalsParse(s);
    if s == "" then Num(DefaultEstimatedDays) else ParseInt(s)
  }

  /** `ParseDecimal` for every number whose notation `s` is. */
  lemma DecimalsParse(s: string)
    ensures forall n: nat :: s == Decimal(n) ==> ParseInt(s) == Num(n)
  {
    forall n: nat | s == Decimal(n)
      ensures ParseInt(s) == Num(n)
    {
      ParseDecimal(n);
    }
  }

  /** The categories a submission sends: the valid ones, normalised, in
      draft order. */
  function NormalizeDraft(cats: seq<DraftCategory>): (r: seq<Category>)
    ensures |r| == 0 <==> forall i :: 0 <= i < |cats| ==> !IsValidCategory(cats[i])
    ensures IsSubmittable(r)
    ensures IsSubsequence(Map(CategoryId, r), Map(DraftCategoryId, cats))
    ensures forall k :: 0 <= k < |r| ==> ComesFromValid(r[k], cats)
    ensures forall i :: 0 <= i < |cats| && IsValidCategory(cats[i]) ==> ToCategory(cats[i]) in r
    ensures |r| == |Filter(IsValidCategory, cats)|
    ensures IsSubsequence(r, Map(ToCategory, cats))
  {
    var r := Map(ToCategory, Filter(IsValidCategory, cats));
    NormalizedFacts(cats, r);
    SubsequenceMap(ToCategory, Filter(IsValidCategory, cats), cats);
    r
  }

  /** A draft whose categories are all valid is sent whole: every entry is
      converted, in order, repeats included. */
  lemma NormalizeKeepsEveryValid(cats: seq<DraftCategory>)
    requires forall i :: 0 <= i < |cats| ==> IsValidCategory(cats[i])
    ensures NormalizeDraft(cats) == Map(ToCategory, cats)
  {
    SubsequenceSameLength(NormalizeDraft(cats), Map(ToCategory, cats));
  }

  /** `c` is the normalised form of some valid category of `cats`. */
  predicate ComesFromValid(c: Category, cats: seq<DraftCategory>) {
    exists i :: 0 <= i < |cats| && IsValidCategory(cats[i]) && c == ToCategory(cats[i])
  }

  /** The five facts `NormalizeDraft` promises, gathered in one place. */
  lemma NormalizedFacts(cats: seq<DraftCategory>, r: seq<Category>)
    requires r == Map(ToCategory, Filter(IsValidCategory, cats))
    ensures |r| == 0 <==> forall i :: 0 <= i < |cats| ==> !IsValidCategory(cats[i])
    ensures IsSubmittable(r)
    ensures IsSubsequence(Map(CategoryId, r), Map(DraftCategoryId, cats))
    ensures forall k :: 0 <= k < |r| ==> ComesFromValid(r[k], cats)
    ensures forall i :: 0 <= i < |cats| && IsValidCategory(cats[i]) ==> ToCategory(cats[i]) in r
  {
    NormalizedSubmittable(cats);
    NormalizedIdsInOrder(cats);
    NormalizedEmptyIff(cats);
    NormalizedKeepsValid(cats);
    NormalizedFromValid(cats);
  }

  lemma NormalizedSubmittable(cats: seq<DraftCategory>)
    ensures IsSubmittable(Map(ToCategory, Filter(IsValidCategory, cats)))
  {
    var valid := Filter(IsValidCategory, cats);
    var out := Map(ToCategory, valid);
    forall k | 0 <= k < |out|
      ensures !IsBlank(out[k].name) && |out[k].tasks| > 0
      ensures forall j :: 0 <= j < |out[k].tasks| ==> !IsBlank(out[k].tasks[j].title)
    {
      ValidCategorySubmittable(valid[k]);
    }
  }

  lemma ValidCategorySubmittable(c: DraftCategory)
    requires IsValidCategory(c)
    ensures !IsBlank(ToCategory(c).name) && |ToCategory(c).tasks| > 0
    ensures forall j :: 0 <= j < |ToCategory(c).tasks| ==> !IsBlank(ToCategory(c).tasks[j].title)
  {
    ToCategoryTasks(c);
  }

  lemma NormalizedIdsInOrder(cats: seq<DraftCategory>)
    ensures IsSubsequence(Map(CategoryId, Map(ToCategory, Filter(IsValidCategory, cats))), Map(DraftCategoryId, cats))
  {
    var valid := Filter(IsValidCategory, cats);
    assert Map(CategoryId, Map(ToCategory, valid)) == Map(DraftCategoryId, valid);
    SubsequenceMap(DraftCategoryId, valid, cats);
  }

  lemma NormalizedEmptyIff(cats: seq<DraftCategory>)
    ensures |Map(ToCategory, Filter(IsValidCategory, cats))| == 0
        <==> forall i :: 0 <= i < |cats| ==> !IsValidCategory(cats[i])
  {
    var valid := Filter(IsValidCategory, cats);
    if |valid| == 0 {
      forall i | 0 <= i < |cats| && IsValidCategory(cats[i])
        ensures false
      {
        KeptIsMapped(IsValidCategory, ToCategory, cats, i);
      }
    }
  }

  lemma NormalizedKeepsValid(cats: seq<DraftCategory>)
    ensures forall i :: 0 <= i < |cats| && IsValidCategory(cats[i]) ==>
      ToCategory(cats[i]) in Map(ToCategory, Filter(IsValidCategory, cats))
  {
    forall i | 0 <= i < |cats| && IsValidCategory(cats[i])
      ensures ToCategory(cats[i]) in Map(ToCategory, Filter(IsValidCategory, cats))
    {
      KeptIsMapped(IsValidCategory, ToCategory, cats, i);
    }
  }

  lemma NormalizedFromValid(cats: seq<DraftCategory>)
    ensures var out := Map(ToCategory, Filter(IsValidCategory, cats));
      forall k :: 0 <= k < |out| ==> ComesFromValid(out[k], cats)
  {
    var out := Map(ToCategory, Filter(IsValidCategory, cats));
    forall k | 0 <= k < |out|
      ensures ComesFromValid(out[k], cats)
    {
      MappedComesFrom(IsValidCategory, ToCategory, cats, k);
    }
  }

  /** An element that passes the filter shows up, mapped, in the result. */
  lemma KeptIsMapped<A, B>(p: A -> bool, f: A -> B, s: seq<A>, j: int)
    requires 0 <= j < |s| && p(s[j])
    ensures f(s[j]) in Map(f, Filter(p, s))
  {
    var kept := Filter(p, s);
    assert s[j] in kept;
    var k :| 0 <= k < |kept| && kept[k] == s[j];
    assert Map(f, kept)[k] == f(s[j]);
  }

  /** Every element of a mapped filter comes from an element that passed. */
  lemma MappedComesFrom<A, B>(p: A -> bool, f: A -> B, s: seq<A>, k: int)
    requires 0 <= k < |Filter(p, s)|
    ensures exists i :: 0 <= i < |s| && p(s[i]) && Map(f, Filter(p, s))[k] == f(s[i])
  {
    var kept := Filter(p, s);
    assert kept[k] in s;
    var i :| 0 <= i < |s| && s[i] == kept[k];
    assert Map(f, kept)[k] == f(s[i]);
  }

  /** The submit handler: rejects a blank template name, then a draft without
      a valid category; otherwise builds the `createTemplate` argument from
      the valid categories, normalised, in draft order. */
  function SubmitTemplate(name: string, description: string, estimatedDays: string, cats: seq<DraftCategory>)
    : (r: Result<TemplateInput, DraftError>)
    ensures r == Failure(BlankName) <==> IsBlank(name)
    ensures r == Failure(NoValidCategory) <==>
      !IsBlank(name) && forall i :: 0 <= i < |cats| ==> !IsValidCategory(cats[i])
    ensures r.Success? ==> r.value.name == name && |r.value.categories| > 0
    ensures r.Success? ==> r.value.categories == NormalizeDraft(cats)
    ensures r.Success? ==> r.value.description == (if description == "" then None else Some(description))
    ensures r.Success? ==> r.value.estimatedDays == Some(EstimatedDaysField(estimatedDays))
  {
    if IsBlank(name) then Failure(BlankName)
    else
      var out := NormalizeDraft(cats);
      if |out| == 0 then Failure(NoValidCategory)
      else
        Success(TemplateInput(
          name,
          if description == "" then None else Some(description),
          Some(EstimatedDaysField(estimatedDays)),
          out))
  }

  /** The draft the editor opens with has distinct ids and cannot be
      submitted as it is: without a name it is rejected for the name, with
      one for having no valid category. */
  lemma InitialDraftRejected(name: string, description: string, estimatedDays: string, freshId: string)
    ensures IdsUnique(InitialDraft(freshId))
    ensures SubmitTemplate(name, description, estimatedDays, InitialDraft(freshId))
         == Failure(if IsBlank(name) then BlankName else NoValidCategory)
  {
    var cats := InitialDraft(freshId);
    assert !IsValidCategory(cats[0]);
  }

  /** The day count a submitted template is stored with: 14 for an empty
      field and for "0", otherwise the number typed; never 0. */
  lemma StoredEstimatedDays(name: string, description: string, n: nat, cats: seq<DraftCategory>)
    requires !IsBlank(name)
    requires exists i :: 0 <= i < |cats| && IsValidCategory(cats[i])
    ensures TemplateRow(SubmitTemplate(name, description, "", cats).value).estimatedDays == 14
    ensures TemplateRow(SubmitTemplate(name, description, Decimal(n), cats).value).estimatedDays
         == (if n == 0 then 14 else n)
  {
    SubmitSucceeds(name, description, "", cats);
    SubmitSucceeds(name, description, Decimal(n), cats);
    RowDays(SubmitTemplate(name, description, "", cats).value, "");
    ParseDecimal(n);
    RowDays(SubmitTemplate(name, description, Decimal(n), cats).value, Decimal(n));
  }

  /** The insert default applied to the day count the form sends. */
  lemma RowDays(input: TemplateInput, field: string)
    requires input.estimatedDays == Some(EstimatedDaysField(field))
    ensures field == "" ==> TemplateRow(input).estimatedDays == DefaultEstimatedDays
    ensures ParseInt(field).Num? && field != "" ==>
      TemplateRow(input).estimatedDays == (if ParseInt(field).n == 0 then DefaultEstimatedDays else ParseInt(field).n)
  {
  }

  /** A named template with at least one valid category is accepted,
      whatever the other fields hold. */
  lemma SubmitSucceeds(name: string, description: string, estimatedDays: string, cats: seq<DraftCategory>)
    requires !IsBlank(name)
    requires exists i :: 0 <= i < |cats| && IsValidCategory(cats[i])
    ensures SubmitTemplate(name, description, estimatedDays, cats).Success?
  {
    var r := SubmitTemplate(name, description, estimatedDays, cats);
    assert r != Failure(NoValidCategory);
  }
}

=== FILE: template_list.dfy ===
/** The task counts shown on each card of the template list. */
module TemplateList {
  import opened Types
  import opened Seqs
  import opened ProgressEngine

  function IsRequired(t: Task): bool {
    t.required
  }

  /** `categories.reduce((sum, cat) => sum + cat.tasks.length, 0)`. */
  function TotalTasks(cats: seq<Category>): (r: nat)
    ensures r == |AllTasks(cats)|
  {
    if |cats| == 0 then 0 else |cats[0].tasks| + TotalTasks(cats[1..])
  }

  /** `categories.reduce((sum, cat) => sum + cat.tasks.filter(t => t.required).length, 0)`. */
  function RequiredTasks(cats: seq<Category>): (r: nat)
    ensures r == RequiredCount(AllTasks(cats))
    ensures r <= TotalTasks(cats)
  {
    if |cats| == 0 then 0
    else
      FilterCountsRequired(cats[0].tasks);
      CountsAppend(cats[0].tasks, AllTasks(cats[1..]), map[]);
      |Filter(IsRequired, cats[0].tasks)| + RequiredTasks(cats[1..])
  }

  lemma {:induction false} FilterCountsRequired(ts: seq<Task>)
    ensures |Filter(IsRequired, ts)| == RequiredCount(ts)
    decreases |ts|
  {
    if |ts| > 0 {
      FilterCountsRequired(ts[1..]);
    }
  }

  /** The required count on a template's card is the total the progress
      engine reports for any checklist holding the same categories. */
  lemma CardMatchesProgressTotal(t: Template, c: Checklist)
    requires c.categories == t.categories
    ensures RequiredTasks(t.categories) == CalculateProgress(c).total
  {
  }

  /** A template without categories shows 0 tasks, 0 of them required. */
  lemma EmptyTemplateCounts(t: Template)
    requires t.categories == []
    ensures TotalTasks(t.categories) == 0 && RequiredTasks(t.categories) == 0
  {
  }
}

=== FILE: text.dfy ===
/** The JavaScript string primitives the application relies on:
    `String.prototype.trim`, `toLowerCase`, `includes`, `startsWith` and the
    global `parseInt`. A string is a `seq<char>` of Unicode scalar values
    (code points), where JavaScript has UTF-16 code units; a character
    outside the Basic Multilingual Plane is one element here and two there. */
module Text {

  /** The ECMAScript WhiteSpace and LineTerminator code points: what `trim`
      strips and what `parseInt` skips before the number. */
  predicate IsJsSpace(c: char) {
    var n := c as int;
    || n == 0x09 || n == 0x0A || n == 0x0B || n == 0x0C || n == 0x0D || n == 0x20
    || n == 0xA0 || n == 0x1680 || 0x2000 <= n <= 0x200A || n == 0x2028
    || n == 0x2029 || n == 0x202F || n == 0x205F || n == 0x3000 || n == 0xFEFF
  }

  /** `s` without its leading whitespace. */
  function TrimStart(s: string): (r: string)
    ensures |r| <= |s| && r == s[|s| - |r|..]
    ensures forall i :: 0 <= i < |s| - |r| ==> IsJsSpace(s[i])
    ensures |r| > 0 ==> !IsJsSpace(r[0])
    decreases |s|
  {
    if |s| > 0 && IsJsSpace(s[0]) then TrimStart(s[1..]) else s
  }

  /** `s` without its trailing whitespace. */
  function TrimEnd(s: string): (r: string)
    ensures |r| <= |s| && r == s[..|r|]
    ensures forall i :: |r| <= i < |s| ==> IsJsSpace(s[i])
    ensures |r| > 0 ==> !IsJsSpace(r[|r| - 1])
    decreases |s|
  {
    if |s| > 0 && IsJsSpace(s[|s| - 1]) then TrimEnd(s[..|s| - 1]) else s
  }

  /** `s.trim()`: nothing is left exactly when `s` is whitespace only. */
  function Trim(s: string): (r: string)
    ensures r == "" <==> forall i :: 0 <= i < |s| ==> IsJsSpace(s[i])
  {
    TrimEmptyIffSpace(s);
    TrimEnd(TrimStart(s))
  }

  lemma TrimEmptyIffSpace(s: string)
    ensures TrimEnd(TrimStart(s)) == "" <==> forall i :: 0 <= i < |s| ==> IsJsSpace(s[i])
  {
    var t := TrimStart(s);
    if |t| > 0 {
      assert t[0] == s[|s| - |t|];
    }
  }

  /** JavaScript's `!s.trim()`: the string holds whitespace only (see
      `BlankIffTrimEmpty`). */
  predicate IsBlank(s: string) {
    forall i :: 0 <= i < |s| ==> IsJsSpace(s[i])
  }

  /** `IsBlank` is exactly "nothing is left after `trim`". */
  lemma BlankIffTrimEmpty(s: string)
    ensures IsBlank(s) <==> Trim(s) == ""
  {
  }

  /** The capital letters the model lowers: ASCII `A`-`Z` and the Latin-1
      capitals U+00C0-U+00DE (which include the German umlauts), leaving
      out the multiplication sign U+00D7. Each lies 32 code points above its
      small letter. */
  predicate IsCapital(c: char) {
    'A' <= c <= 'Z' || ('\U{C0}' <= c <= '\U{DE}' && c != '\U{D7}')
  }

  /** `toLowerCase` on one character; every other character is kept. */
  function LowerChar(c: char): char {
    if IsCapital(c) then (c as int + 32) as char else c
  }

  /** `s.toLowerCase()`: same length, every capital turned into its own
      small letter, every other character kept as it is, so no capital is
      left. */
  function ToLower(s: string): (r: string)
    ensures |r| == |s|
    ensures forall i :: 0 <= i < |r| ==> !('A' <= r[i] <= 'Z')
    ensures forall i :: 0 <= i < |s| && !('A' <= s[i] <= 'Z') && s[i] < '\U{C0}' ==> r[i] == s[i]
    ensures forall i :: 0 <= i < |s| && IsCapital(s[i]) ==> r[i] as int == s[i] as int + 32
    ensures forall i :: 0 <= i < |s| && !IsCapital(s[i]) ==> r[i] == s[i]
    ensures forall i :: 0 <= i < |r| ==> !IsCapital(r[i])
  {
    seq(|s|, i requires 0 <= i < |s| => LowerChar(s[i]))
  }

  /** Lowering twice is lowering once. */
  lemma ToLowerIdempotent(s: string)
    ensures ToLower(ToLower(s)) == ToLower(s)
  {
    var once := ToLower(s);
    forall i | 0 <= i < |s|
      ensures LowerChar(once[i]) == once[i]
    {
      assert once[i] == LowerChar(s[i]);
    }
  }

  /** `hay.includes(needle)`: `needle` occurs as a contiguous block of `hay`.
      A needle longer than `hay` never occurs; a prefix always does. */
  function Contains(hay: string, needle: string): (b: bool)
    ensures b ==> |needle| <= |hay|
    ensures needle <= hay ==> b
  {
    assert hay[0..] == hay;
    exists i | 0 <= i <= |hay| - |needle| :: needle <= hay[i..]
  }

  /** `needle` occurs in `hay` at index `i`: the reference reading of an
      occurrence, by position and length. */
  predicate OccursAt(hay: string, needle: string, i: int) {
    0 <= i && i + |needle| <= |hay| && hay[i..i + |needle|] == needle
  }

  /** `includes` holds exactly when the needle occurs at some index. */
  lemma ContainsIffOccurs(hay: string, needle: string)
    ensures Contains(hay, needle) <==> exists i :: OccursAt(hay, needle, i)
  {
    if Contains(hay, needle) {
      var i :| 0 <= i <= |hay| - |needle| && needle <= hay[i..];
      assert hay[i..i + |needle|] == hay[i..][..|needle|];
      assert OccursAt(hay, needle, i);
    }
    if i :| OccursAt(hay, needle, i) {
      assert hay[i..i + |needle|] == hay[i..][..|needle|];
      assert needle <= hay[i..];
    }
  }

  /** A needle found anywhere in the text, not only at its start, is found
      by `includes`. */
  lemma ContainsInfix(a: string, needle: string, z: string)
    ensures Contains(a + needle + z, needle)
  {
    var hay := a + needle + z;
    assert hay[|a|..|a| + |needle|] == needle;
    assert OccursAt(hay, needle, |a|);
    ContainsIffOccurs(hay, needle);
  }

  /** `s.startsWith(prefix)`. */
  predicate StartsWith(s: string, prefix: string) {
    prefix <= s
  }

  /** A JavaScript number as `parseInt` produces it: an integer or NaN. */
  datatype JsNumber = Num(n: int) | NaN {
    /** JavaScript truthiness of a number: everything but 0 and NaN. */
    predicate IsTruthy() {
      Num? && n != 0
    }
  }

  /** The digit value of `c` in radix 36; 36 for a non-digit. */
  function DigitValue(c: char): nat {
    if '0' <= c <= '9' then c as int - '0' as int
    else if 'a' <= c <= 'z' then c as int - 'a' as int + 10
    else if 'A' <= c <= 'Z' then c as int - 'A' as int + 10
    else 36
  }

  /** Length of the longest prefix of `s` made of digits of `radix`. */
  function DigitPrefixLength(s: string, radix: nat): (k: nat)
    ensures k <= |s|
    ensures forall i :: 0 <= i < k ==> DigitValue(s[i]) < radix
    ensures k < |s| ==> DigitValue(s[k]) >= radix
    decreases |s|
  {
    if |s| > 0 && DigitValue(s[0]) < radix then 1 + DigitPrefixLength(s[1..], radix) else 0
  }

  /** The value of the digit string `d` in `radix`, most significant first. */
  function DigitsValue(d: string, radix: nat): nat
    decreases |d|
  {
    if |d| == 0 then 0 else DigitsValue(d[..|d| - 1], radix) * radix + DigitValue(d[|d| - 1])
  }

  /** The global `parseInt(s)` without a radix argument: skip leading
      whitespace, read an optional sign and an optional `0x` prefix, then the
      longest run of digits; NaN when there is none. */
  function ParseInt(s: string): (r: JsNumber)
    ensures (forall i :: 0 <= i < |s| ==> IsJsSpace(s[i])) ==> r.NaN?
    ensures |s| > 0 && '0' <= s[0] <= '9' && !(|s| >= 2 && (s[1] == 'x' || s[1] == 'X')) ==> r.Num? && r.n >= 0
    ensures |s| > 0 && !IsJsSpace(s[0]) && s[0] != '-' && s[0] != '+' && DigitValue(s[0]) >= 10 ==> r.NaN?
  {
    NotSpaceIfDigitOrLetter(s);
    UnsignedFacts(s);
    UnsignedFacts("");
    var t := TrimStart(s);
    if |t| > 0 && t[0] == '-' then
      match ParseUnsigned(t[1..])
      case Num(v) => Num(-v)
      case NaN => NaN
    else if |t| > 0 && t[0] == '+' then ParseUnsigned(t[1..])
    else ParseUnsigned(t)
  }

  /** Trimming leaves nothing of whitespace only, and leaves `s` as it is
      when it starts with anything else. */
  lemma NotSpaceIfDigitOrLetter(s: string)
    ensures (forall i :: 0 <= i < |s| ==> IsJsSpace(s[i])) ==> TrimStart(s) == ""
    ensures |s| > 0 && !IsJsSpace(s[0]) ==> TrimStart(s) == s
    ensures |s| > 0 && '0' <= s[0] <= '9' ==> !IsJsSpace(s[0])
  {
    var t := TrimStart(s);
    if |t| > 0 {
      assert t[0] == s[|s| - |t|];
    }
    if |s| > 0 && '0' <= s[0] <= '9' {
      assert 48 <= s[0] as int <= 57;
    }
  }

  /** When the unsigned part reads a number and when it gives NaN. */
  lemma UnsignedFacts(u: string)
    ensures |u| == 0 ==> ParseUnsigned(u).NaN?
    ensures |u| > 0 && '0' <= u[0] <= '9' && !(|u| >= 2 && (u[1] == 'x' || u[1] == 'X')) ==>
      ParseUnsigned(u).Num? && ParseUnsigned(u).n >= 0
    ensures |u| > 0 && DigitValue(u[0]) >= 10 ==> ParseUnsigned(u).NaN?
  {
    if |u| > 0 && '0' <= u[0] <= '9' {
      assert DigitValue(u[0]) < 10;
      assert DigitPrefixLength(u, 10) > 0;
    }
  }

  /** The unsigned part of `parseInt`: hexadecimal after `0x` or `0X`,
      decimal otherwise. */
  function ParseUnsigned(u: string): JsNumber {
    if |u| >= 2 && u[0] == '0' && (u[1] == 'x' || u[1] == 'X') then ParseDigits(u[2..], 16)
    else ParseDigits(u, 10)
  }

  function ParseDigits(body: string, radix: nat): JsNumber {
    var k := DigitPrefixLength(body, radix);
    if k == 0 then NaN else Num(DigitsValue(body[..k], radix))
  }

  /** The decimal notation of `n`, as a number input field holds it. */
  function Decimal(n: nat): (r: string)
    ensures |r| > 0
    ensures forall i :: 0 <= i < |r| ==> '0' <= r[i] <= '9'
  {
    var digit := ('0' as int + n % 10) as char;
    if n < 10 then [digit] else Decimal(n / 10) + [digit]
  }

  lemma {:induction false} DecimalValue(n: nat)
    ensures DigitsValue(Decimal(n), 10) == n
  {
    var d := Decimal(n);
    if n >= 10 {
      assert d[..|d| - 1] == Decimal(n / 10);
      DecimalValue(n / 10);
    }
  }

  lemma {:induction false} AllDigitsPrefix(d: string)
    requires forall i :: 0 <= i < |d| ==> '0' <= d[i] <= '9'
    ensures DigitPrefixLength(d, 10) == |d|
    decreases |d|
  {
    if |d| > 0 {
      AllDigitsPrefix(d[1..]);
    }
  }

  /** `parseInt` of a non-empty string of decimal digits is its value. */
  lemma ParseDigitString(d: string)
    requires |d| > 0
    requires forall i :: 0 <= i < |d| ==> '0' <= d[i] <= '9'
    ensures ParseInt(d) == Num(DigitsValue(d, 10))
  {
    assert !IsJsSpace(d[0]) by {
      assert 48 <= d[0] as int <= 57;
    }
    assert TrimStart(d) == d;
    assert d[0] != '-' && d[0] != '+';
    assert !(|d| >= 2 && d[0] == '0' && (d[1] == 'x' || d[1] == 'X')) by {
      if |d| >= 2 {
        assert '0' <= d[1] <= '9';
      }
    }
    assert ParseInt(d) == ParseDigits(d, 10);
    AllDigitsPrefix(d);
    assert d[..|d|] == d;
  }

  /** `parseInt` reads back every decimal notation it is given. */
  lemma ParseDecimal(n: nat)
    ensures ParseInt(Decimal(n)) == Num(n)
  {
    ParseDigitString(Decimal(n));
    DecimalValue(n);
  }
}

=== FILE: types.dfy ===
/** The entity shapes of the application: task types, checklist statuses,
    tasks, categories, templates and checklists. Timestamps and dates are kept
    as the opaque strings the data store holds. */
module Types {
  import opened Wrappers

  /** The four kinds of task; each decides how an answer counts as done. */
  datatype TaskType = Checkbox | Text | Number | File

  /** The five stored lifecycle states of a checklist. */
  datatype ChecklistStatus = Draft | Sent | InProgress | Completed | Overdue

  /** The string the data store and the user interface use for a task type. */
  function TaskTypeName(t: TaskType): string {
    match t
    case Checkbox => "checkbox"
    case Text => "text"
    case Number => "number"
    case File => "file"
  }

  /** Reads a stored task type; any other string names no type. */
  function ParseTaskType(s: string): (r: Option<TaskType>)
    ensures r.Some? ==> TaskTypeName(r.value) == s
    ensures r.None? ==> forall t: TaskType :: TaskTypeName(t) != s
  {
    if s == "checkbox" then Some(Checkbox)
    else if s == "text" then Some(Text)
    else if s == "number" then Some(Number)
    else if s == "file" then Some(File)
    else None
  }

  /** The string the data store and the status filter use for a status. */
  function StatusName(s: ChecklistStatus): string {
    match s
    case Draft => "draft"
    case Sent => "sent"
    case InProgress => "in_progress"
    case Completed => "completed"
    case Overdue => "overdue"
  }

  /** Reads a stored status; any other string names no status. */
  function ParseStatus(s: string): (r: Option<ChecklistStatus>)
    ensures r.Some? ==> StatusName(r.value) == s
    ensures r.None? ==> forall st: ChecklistStatus :: StatusName(st) != s
  {
    if s == "draft" then Some(Draft)
    else if s == "sent" then Some(Sent)
    else if s == "in_progress" then Some(InProgress)
    else if s == "completed" then Some(Completed)
    else if s == "overdue" then Some(Overdue)
    else None
  }

  /** Each task type has its own name, and reading the name gives it back. */
  lemma TaskTypeNameRoundTrip(t: TaskType)
    ensures ParseTaskType(TaskTypeName(t)) == Some(t)
  {
  }

  /** Each status has its own name, and reading the name gives it back. */
  lemma StatusNameRoundTrip(s: ChecklistStatus)
    ensures ParseStatus(StatusName(s)) == Some(s)
  {
  }

  /** A stored answer to a task: the JSON values a customer's input produces.
      A missing key in the answer map means "no answer". */
  datatype Value = VBool(b: bool) | VStr(s: string) | VNum(n: int) | VNull

  type TaskStates = map<string, Value>

  datatype Task = Task(id: string, title: string, description: Option<string>, kind: TaskType, required: bool)

  /** A named group of tasks; the order of `tasks` is the display order. */
  datatype Category = Category(id: string, name: string, tasks: seq<Task>)

  datatype Template = Template(
    id: string,
    name: string,
    description: Option<string>,
    estimatedDays: int,
    categories: seq<Category>,
    createdAt: string,
    updatedAt: string)

  /** A checklist owns its copy of the categories; `taskStates` is absent
      until a first answer has been stored. */
  datatype Checklist = Checklist(
    id: string,
    templateId: Option<string>,
    projectName: string,
    machineType: string,
    serialNumber: string,
    customerName: string,
    customerEmail: string,
    customerPhone: Option<string>,
    publicToken: string,
    status: ChecklistStatus,
    dueDate: Option<string>,
    categories: seq<Category>,
    createdAt: string,
    updatedAt: string,
    completedAt: Option<string>,
    taskStates: Option<TaskStates>)
}

=== FILE: wrappers.dfy ===
/** The optional and two-way result types used throughout the model:
    `Option` stands for the source's `undefined`/`null`/not-found results,
    `Result` for a form submission that is either accepted or rejected with
    a reason. */
module Wrappers {

  datatype Option<+T> = None | Some(value: T) {

    /** Returns the wrapped value, or `default` when there is none. */
    function GetOr(default: T): T {
      match this
      case Some(v) => v
      case None => default
    }
  }

  datatype Result<+R, +E> = Success(value: R) | Failure(error: E)
}
